=== FILE: README.md ===
# Meow Noir Runner: a model of the game logic

This project models the frame logic of the side-scrolling runner in
`2DBTCMeowNoirRunner/setup.py`, written with pygame. A cat runs along the
ground. Enemies walk in from the right. The player jumps, swings an attack
and turns invisible for a while. Touching an enemy while visible ends the
run. The score gains one point per frame and 100 per kill, and the high score
is kept across runs.

The model is functional. Every object of the game is an immutable datatype.
Every method that mutates an object in the source is a function here that
returns the new value and, where the source returns one, its boolean result.

| module | file | models |
|---|---|---|
| `Config` | config.dfy | the game's constants |
| `Basics` | basics.dfy | an optional value, RGB colours, and minimum and maximum |
| `Geometry` | geometry.dfy | integer rectangles and the framework's rectangle collision |
| `Particles` | particles.dfy | `Particle`, its ageing, and the capped particle list (`add_particle`) |
| `Animations` | animation.dfy | `Animation` (update, play, stop, current frame); the class stands on its own, since nothing else in `setup.py` creates one, so its properties say nothing about what is on screen |
| `Backgrounds` | background.dfy | `Background`: layer loading outcomes, theme choice, parallax scroll |
| `Players` | player.dfy | `Player`: per-frame update and the jump, attack, special attack, hide and damage actions |
| `Enemies` | enemy.dfy | `Enemy`: spawn, walk, damage |
| `Game` | game.dfy | the running part of the main loop: key events, spawning, updates, off-screen removal, combat, contact, high score, score |

Outside inputs are passed in as parameters:

- The random draws are streams (`Rng`, a function from index to draw). Each
  emission of particles reads its own stream. The kind and speed of a
  spawned enemy are fields of the frame input.
- The game clock (`pygame.time.get_ticks() / 1000`) is the `now` parameter.
- Rect coordinates are integers in the framework. A fractional coordinate
  assigned to one is converted by the framework; that conversion is the
  `toCoord` parameter.
- Python floats are modelled as exact reals, with one frame lasting
  `1/60` second.

Properties proved include:

- An attack lasts exactly 18 frames.
- Invisibility lasts 300 frames and is followed by a 600-frame cooldown.
- A fresh particle lives exactly 60 updates.
- The parallax layers loop with period `800 / speed` frames.
- It takes 3 hits to kill a basic enemy and 5 to kill a strong one.
- Every enemy with a positive speed (the source draws 2 to 4) eventually walks off screen.
- Once 3 s have passed since the last damage, health regenerates one step every 60 frames.
- The frame after a game over either restarts on R or returns to the start menu with a fresh game.
- One swing damages each enemy at most once.
- Across any number of frames, the state invariant holds and the high score
  never drops. The invariant covers the enemy cap, the particle cap, the
  health cap and the invisibility/cooldown exclusion.

## Model

| member | source | states |
|---|---|---|
| Animations.New | 2DBTCMeowNoirRunner/setup.py:81-87 | a new animation holds the given frames and speed, is stopped on frame 0 with its timer at 0, and its index is in range |
| Animations.NewDefault | 2DBTCMeowNoirRunner/setup.py:81-87 | an animation built without a speed runs at the default 0.1 s per frame and is otherwise as `Animations.New` |
| Animations.Update | 2DBTCMeowNoirRunner/setup.py:89-96 | a stopped animation is unchanged; below `speed` only the timer grows; at `speed` the timer resets and the frame steps forward, wrapping to 0 after the last; the modulo fails exactly when playing, due, and the frame list is empty, and the failure leaves the animation with its timer already reset to 0; frames, speed and the playing flag are kept; the index stays in range |
| Animations.Play | 2DBTCMeowNoirRunner/setup.py:98-101 | playing from frame 0 with the timer at 0, with frames and speed kept |
| Animations.Stop | 2DBTCMeowNoirRunner/setup.py:103-106 | stopped on frame 0 with the timer at 0, with frames and speed kept |
| Animations.CurrentFrame | 2DBTCMeowNoirRunner/setup.py:108-109 | the frame at the index, or failure exactly when the index is past the list; for a valid animation, failure exactly when there are no frames |
| Animations.PlayCycles | 2DBTCMeowNoirRunner/setup.py:89-101 | played one update per `speed` seconds, a k-frame animation shows frame n after n < k updates and is back at its start after k |
| Backgrounds.ThemeIndex | 2DBTCMeowNoirRunner/setup.py:147-151 | for a non-negative score the theme is a palette index and the score lies in that theme's 1000-point band |
| Backgrounds.ThemeBandUnique | 2DBTCMeowNoirRunner/setup.py:115-121 | a score lies in a theme's band if and only if that theme is the one chosen |
| Backgrounds.ThemeMonotone | 2DBTCMeowNoirRunner/setup.py:147-151 | a higher score never selects an earlier theme |
| Backgrounds.Scroll | 2DBTCMeowNoirRunner/setup.py:153-157 | the offset drops by the speed, or resets to 0 exactly when it would reach -800; the offset stays in (-800, 0] |
| Backgrounds.Update | 2DBTCMeowNoirRunner/setup.py:147-157 | the theme follows the score; every layer scrolls once; the background stays valid |
| Backgrounds.InitialLayers | 2DBTCMeowNoirRunner/setup.py:124-145 | when loading the main image raises a pygame error there is one placeholder layer at speed 1.0; with it the main layer (speed 0.5) comes first, followed by one layer per overlay that loaded: the first overlay at speed 1.0, the second, last, at speed 2.0; every layer starts at offset 0 |
| Backgrounds.New | 2DBTCMeowNoirRunner/setup.py:112-122 | a new background is valid, on theme 0, and holds exactly the initial layers for the images that loaded |
| Backgrounds.ScrollPeriod | 2DBTCMeowNoirRunner/setup.py:153-157 | a layer whose speed divides 800 into n steps moves steadily left for n - 1 frames and is back at 0 on the n-th |
| Particles.Advance | 2DBTCMeowNoirRunner/setup.py:188-192 | the particle moves by its velocity; its life drops by `dt`; it reports alive exactly when life stays positive |
| Particles.Survivors | 2DBTCMeowNoirRunner/setup.py:359 | a particle is kept exactly when it is the advanced form of an old one that stayed alive; no dead particle survives; the list never grows |
| Particles.SurvivorsCount | 2DBTCMeowNoirRunner/setup.py:359 | the survivors are exactly as many as the particles whose life outlasts the step |
| Particles.AddParticle | 2DBTCMeowNoirRunner/setup.py:258-260 | a particle is appended only while fewer than 50 are held |
| Particles.Emit | 2DBTCMeowNoirRunner/setup.py:289-296 | adding a burst one by one under the cap appends a prefix of it, exactly as many as fit under 50 |
| Particles.NewParticle | 2DBTCMeowNoirRunner/setup.py:179-186 | a new particle sits at the given point in the given colour with one second of life; its size and velocity are the draw's, so a draw the game can make gives a size from 2 to 4 and velocity components in [-2, 2] |
| Particles.NewParticleLivesOneSecond | 2DBTCMeowNoirRunner/setup.py:179-192 | every particle the game creates survives its first 59 frame updates and expires on the 60th |
| Particles.FreshParticleLivesOneSecond | 2DBTCMeowNoirRunner/setup.py:180-192 | a new particle survives its first 59 frame updates and expires on the 60th |
| Geometry.OverlapsIffCommonPoint | 2DBTCMeowNoirRunner/setup.py:702 | two rectangles collide exactly when some point lies inside both |
| Players.New | 2DBTCMeowNoirRunner/setup.py:202-247 | a new player is a 50 by 80 rectangle at (x, y), facing right and at rest (no horizontal or vertical speed); it is valid: full health, on the ground, not attacking, not hidden, no cooldown, no particles |
| Players.AttackClock | 2DBTCMeowNoirRunner/setup.py:266-271 | while attacking, the timer grows by one frame; the attack ends, with the timer reset, exactly when the timer reaches 0.3 s |
| Players.HideClock | 2DBTCMeowNoirRunner/setup.py:273-280 | while hidden the timer runs down and on reaching 0 the player reappears with a 10 s cooldown; otherwise a positive cooldown runs down |
| Players.AttackLastsEighteenFrames | 2DBTCMeowNoirRunner/setup.py:266-271 | a fresh attack is on for 17 updates and over after the 18th |
| Players.HiddenLastsFiveSeconds | 2DBTCMeowNoirRunner/setup.py:273-278 | after hiding, the player stays hidden for 299 updates and reappears on the 300th with the full cooldown |
| Players.CooldownLastsTenSeconds | 2DBTCMeowNoirRunner/setup.py:279-280 | the cooldown stays positive, so hiding is refused, for 599 updates, and is spent after the 600th |
| Players.RegenClock | 2DBTCMeowNoirRunner/setup.py:285-288 | the regeneration timer grows by one frame; a step is due, and the timer restarts at 0, exactly when it reaches one second |
| Players.RegenEverySecond | 2DBTCMeowNoirRunner/setup.py:285-288 | from a restarted timer, no regeneration step in the first 59 frames and exactly one on the 60th, the timer then back at 0 |
| Players.Regenerate | 2DBTCMeowNoirRunner/setup.py:282-296 | within 3 s of the last damage nothing changes; after that the timer follows the regeneration clock: when a step is due the result is a heal, otherwise only the timer grows by one frame; health either stays or rises by 0.5 capped at 200; the particle cap holds; only health, regeneration timer and particles change |
| Players.Heal | 2DBTCMeowNoirRunner/setup.py:286-296 | a regeneration step raises health by 0.5 up to 200 and restarts the timer; sparkles appear only while health stays below 200 |
| Players.Steer | 2DBTCMeowNoirRunner/setup.py:298-305 | right sets speed 5 and faces right; left alone sets speed -5 and faces left; no key gives speed 0 and keeps the facing; right wins over left |
| Players.Move | 2DBTCMeowNoirRunner/setup.py:307-332 | the player stays within the screen horizontally and moves by its speed when that stays inside; past the left edge it stops at x = 0, past the right edge at x = 800 - width; it never goes below the ground; it is on the ground exactly when its bottom is at 500, and then it is not jumping and has no vertical speed; in the air gravity adds 0.8 |
| Players.Animate | 2DBTCMeowNoirRunner/setup.py:334-350 | the frame index stays 0 or 1; only the animation fields change |
| Players.Clocks | 2DBTCMeowNoirRunner/setup.py:266-296 | the attack and hide fields follow their clocks; within 3 s of damage health and regeneration timer are kept, after that the timer follows the regeneration clock and health rises (capped at 200) exactly on a due step; the player invariant is kept |
| Players.Update | 2DBTCMeowNoirRunner/setup.py:262-365 | the player invariant is preserved; the attack and hide fields follow their clocks; the regeneration timer follows its clock once 3 s have passed since damage, and health rises (capped at 200) exactly on a due step; steering sets the horizontal speed, and the new x is the old x plus that speed when it stays on screen, 0 past the left edge and 800 - width past the right edge; the ground facts hold; every particle left is alive; the hit flash runs down |
| Players.Jump | 2DBTCMeowNoirRunner/setup.py:367-381 | succeeds exactly when on the ground and not jumping, giving upward speed 15 and leaving the ground; otherwise nothing changes; old particles are kept |
| Players.Attack | 2DBTCMeowNoirRunner/setup.py:383-392 | succeeds exactly when not already attacking; the hit area is the player's size, beside the player on the side it faces, not overlapping it; otherwise nothing changes |
| Players.SpecialAttack | 2DBTCMeowNoirRunner/setup.py:394-395 | behaves as the attack, with the hit area given explicitly for each facing |
| Players.ToggleHide | 2DBTCMeowNoirRunner/setup.py:400-405 | succeeds exactly when visible and the cooldown is spent, starting a 5 s invisibility; otherwise nothing changes |
| Players.TakeDamage | 2DBTCMeowNoirRunner/setup.py:407-422 | ignored while hidden; otherwise health drops by exactly the amount, the damage time and hit flash are set, and the result reports health at or below 0 |
| Players.DamageSuppressesRegen | 2DBTCMeowNoirRunner/setup.py:282-284 | for 3 s after damage, a frame update leaves the damaged health as it is |
| Enemies.Spawn | 2DBTCMeowNoirRunner/setup.py:433-459 | a new 50 by 60 enemy stands on the ground just past the right edge at full health (30 or 50 by kind), not hit and on screen, walking at the given speed |
| Enemies.Update | 2DBTCMeowNoirRunner/setup.py:461-482 | the enemy steps left by its speed; the off-screen flag rises once the right edge is past 0 and never falls; health, hit mark, speed and kind are kept; every particle left is alive |
| Enemies.TakeDamage | 2DBTCMeowNoirRunner/setup.py:484-499 | health drops by 10, the flash starts, five sparks are added, and the result reports health at or below 0 |
| Enemies.HitsToKill | 2DBTCMeowNoirRunner/setup.py:75-78 | a fresh enemy survives its first max/10 - 1 hits and dies on the next |
| Enemies.UpdateNTravel | 2DBTCMeowNoirRunner/setup.py:461-463 | after n frames an enemy has moved left by the distance of n steps at its speed, with its size and height unchanged (`Enemies.TravelIsProduct`: that distance is `speed * n`) |
| Enemies.EventuallyOffScreen | 2DBTCMeowNoirRunner/setup.py:461-464 | an enemy with positive speed is marked off screen once enough frames pass for its right edge to cross 0 |
| Game.Initial | 2DBTCMeowNoirRunner/setup.py:627-643 | a new game holds the given background and the stored high score, a new player at the start position, score 0, no enemies and a spawn timer at 0; it is not running and satisfies the invariant |
| Game.PlayerKey | 2DBTCMeowNoirRunner/setup.py:655-666 | space jumps, F attacks, E special-attacks, Down hides; block and other keys change nothing; the player invariant is kept |
| Game.MenuKey | 2DBTCMeowNoirRunner/setup.py:667-677 | a run starts exactly on Return with score 0 or on R with a positive score; R also brings a new player, no enemies and score 0; otherwise nothing changes |
| Game.HandleEvents | 2DBTCMeowNoirRunner/setup.py:650-677 | key presses keep the invariant and the high score; during a run they change neither enemies nor score |
| Game.SpawnStep | 2DBTCMeowNoirRunner/setup.py:681-687 | an enemy is added exactly when the timer has reached 2000 ms and fewer than 5 are present, and only then does the timer reset; at most 5 enemies are present |
| Game.Strike | 2DBTCMeowNoirRunner/setup.py:702-706 | an enemy in the area that is not yet hit is marked hit and loses 10 health; any other enemy is untouched; position is kept; a survivor stays alive |
| Game.Swing | 2DBTCMeowNoirRunner/setup.py:700-706 | kills plus survivors account for every enemy; every survivor in the area has been hit; enemies stay alive and on screen |
| Game.SwingCountsKills | 2DBTCMeowNoirRunner/setup.py:700-706 | the kill count of a swing is the number of enemies whose strike kills them (`Game.KillCount`) |
| Game.SwingKeepsAllSurvivors | 2DBTCMeowNoirRunner/setup.py:701-705 | every enemy whose strike did not kill it is present after the swing |
| Game.SwingKeepsOnlySurvivors | 2DBTCMeowNoirRunner/setup.py:701-705 | every enemy left after a swing is the result of a strike that did not kill |
| Game.SwingKeepsSurvivor | 2DBTCMeowNoirRunner/setup.py:701-705 | every enemy whose strike did not kill it is still present after the swing |
| Game.SwingHitsOnce | 2DBTCMeowNoirRunner/setup.py:702-703 | a second pass of the same swing over the survivors hurts nobody and kills nobody |
| Game.ClearHits | 2DBTCMeowNoirRunner/setup.py:707-709 | outside a swing every enemy is kept, with its hit mark cleared |
| Game.SwingFramesOneHit | 2DBTCMeowNoirRunner/setup.py:700-709 | across any number of frames of one swing an enemy loses at most 10 health, and none if it was already hit |
| Game.TouchesIffSomeOverlap | 2DBTCMeowNoirRunner/setup.py:712 | the collision scan finds a hit exactly when some enemy overlaps the player |
| Game.EndRun | 2DBTCMeowNoirRunner/setup.py:714-716 | the high score becomes the larger of itself and the score, and is saved exactly when the score is strictly greater |
| Game.EnemyPhase | 2DBTCMeowNoirRunner/setup.py:681-697 | the enemies left are exactly the one-frame walks of the enemies after the spawn decision that are not off screen; at most one more than before, never more than 5; the spawn timer is the spawn decision's |
| Game.Combat | 2DBTCMeowNoirRunner/setup.py:700-709 | while attacking, the enemies left are exactly the results of strikes that did not kill, and the kill count is the number of killing strikes; otherwise nobody is hurt and every hit mark is cleared |
| Game.Finish | 2DBTCMeowNoirRunner/setup.py:711-719 | the run continues exactly when the player is not caught, and then the high score is kept and nothing is saved; when caught, the high-score decision uses the score before the frame's point; the score gains 100 per kill and 1 |
| Game.ActiveFrame | 2DBTCMeowNoirRunner/setup.py:679-719 | the player takes exactly one update with the held keys and the game clock; the spawn timer is the spawn decision's; the kills are the killing strikes of the updated player's attack on the walked enemies, none without an attack; the contact check, high score, save and score are those of `Game.Finish` on the frame's own player and enemies (the run ends exactly when the visible player touches a remaining enemy); at most 5 enemies remain, none of them off screen; the background is the score-driven `Backgrounds.Update` of the old one |
| Game.ActiveFrameEnemies | 2DBTCMeowNoirRunner/setup.py:689-709 | the enemies a running frame leaves: without an attack the walked enemies with hit marks cleared; with one, exactly the results of the strikes on walked enemies that did not kill |
| Game.Resolve | 2DBTCMeowNoirRunner/setup.py:679-719 | the spawn timer is the spawn decision's; at most 5 enemies, all on screen and alive; the kills are the killing strikes on the walked enemies during an attack and 0 otherwise; the score gains 100 per kill plus 1; without an attack the walked enemies are kept with hit marks cleared; with one the enemies left are exactly the results of the strikes on walked enemies that did not kill, and every survivor in the area is marked; the background follows the score |
| Game.HiddenPlayerIsSafe | 2DBTCMeowNoirRunner/setup.py:712 | a player hidden after its update is never caught: the run continues and nothing is saved |
| Game.NoContactContinues | 2DBTCMeowNoirRunner/setup.py:711-719 | when the player is hidden or no remaining enemy overlaps it, the run goes on, the high score is kept and nothing is saved |
| Game.ContactEndsRun | 2DBTCMeowNoirRunner/setup.py:711-716 | a visible player overlapping a remaining enemy ends the run; the high score becomes the larger of itself and the pre-point score, saved exactly when it is beaten |
| Game.UpdateEnemies | 2DBTCMeowNoirRunner/setup.py:692 | every enemy takes one update step, in order; an enemy is in the result exactly when it is the walk of one before |
| Game.OnScreen | 2DBTCMeowNoirRunner/setup.py:695-697 | an enemy is kept exactly when it was present and not off screen |
| Game.Frame | 2DBTCMeowNoirRunner/setup.py:645-768 | key presses first; when they leave a run on, the frame is exactly the running frame `Game.ActiveFrame` on the state after the presses; on the start menu nothing else changes; after a finished run that the presses did not restart, the state is rebuilt as a new game with a new background and the same high score; the invariant is kept; the high score never drops, and a save writes the new, strictly higher high score |
| Game.IdleKeys | 2DBTCMeowNoirRunner/setup.py:667-677 | after a finished run, key presses other than R change nothing |
| Game.GameOverLeadsToMenu | 2DBTCMeowNoirRunner/setup.py:529-543 | the frame after a run ended without an R press returns to the start menu: no run, score 0, no enemies, a new player, the spawn timer at 0, the high score kept |
| Game.GameOverRestart | 2DBTCMeowNoirRunner/setup.py:672-677 | an R press as the first key after a run ended starts the next run in that frame |
| Game.RunKeepsInv | 2DBTCMeowNoirRunner/setup.py:645-719 | over any sequence of frames the invariant holds and the high score never drops |

## Left out

- Drawing (`draw` methods, `draw_ui`, `draw_shadow`, `show_menu`, the debug overlay, sprite images, alpha and tint) is left out. It has no effect on game state. The pose and mirror flags record which sprite would be shown.
- Sound loading and asset loading are left out. The background's load outcome is an input to `Backgrounds.InitialLayers`: whether the main image loaded (its failure modelled is the `pygame.error` caught at setup.py:140) and whether each overlay loaded. Any other error while loading the main image escapes to the outer handler of the game loop, which is not modelled.
- The random draws for particles (`Particles.Spark`) are unconstrained inputs. The game draws a size from 2 to 4, velocity components in [-2, 2] and hit-spark colours from the three-colour palette; `Particles.GameDraw` states these ranges, and `Particles.NewParticle` states the bounds a particle gets from such a draw, but no operation requires it.
- Reading and writing the high-score file is I/O. A frame reports the value to save, and `Game.Initial` takes the stored value.
- The quit event (in the main loop and in `show_game_over`), `clock.tick`, `asyncio.sleep` and the `try`/`except` wrappers that log and continue are left out.
- `show_game_over` blocks until R is pressed, and the outer loop then rebuilds everything. `Game.Frame` takes that whole wait as the one frame in which it starts. The frames spent waiting, and the R press that ends the wait, are not modelled; the images that load for the rebuilt background are a frame input. The high score read back is taken to be the one last saved, since the file is written only when the high score rises; a failed write or another writer of the file is not modelled.
- Randomness, the game clock and the float-to-integer conversion of rect coordinates are parameters, as described above.
- Floats are exact reals. Accumulated rounding of `1/60` steps in the source could move a timer boundary by one frame. The frame counts proved here hold for exact arithmetic.
- Players.HiddenLastsFiveSeconds: with IEEE double arithmetic, 5 - 300 * (1/60) subtracted step by step leaves about +1.3e-14, so the source's invisibility ends on the 301st update, not the 300th. The attack (18 frames), cooldown (600), particle life (60) and regeneration (60) counts agree with double arithmetic.
- The landing particles in the ground-collision branch are never created: the vertical speed is set to 0 just before the test. The model omits them.
- `current_state`, `was_hit` on the player and `block` carry no behaviour. Block is the key that changes nothing in `Game.PlayerKey`.
- `Animation.loop` is stored but never read. The model keeps the field and nothing uses it.
- `Players.TakeDamage` is not called by the main loop, which ends the run on contact instead. Health is shown against a maximum of 200, but the code never clamps it at 0, so health can become negative. The model follows the code, and the contract states the unclamped drop.
- The enemies' particle list has no cap, unlike the player's. `Enemies.TakeDamage` states the uncapped growth.
- Game.Resolve: the contact and high-score clauses are stated through `Game.Finish` (the result equals `Finish` of its own parts) rather than repeated. For the whole frame, `Game.ContactEndsRun` states that contact ends the run and `Game.NoContactContinues` that the run goes on otherwise.
- The code compares the score from before the frame's `score += 1` with the high score, so a caught run saves one point less than the final score shown. The model follows the code.
- The speed of a spawned enemy is a frame input of any integer; the source draws it from 2 to 4. `Enemies.EventuallyOffScreen` therefore requires a positive speed, which every drawn speed has.

=== FILE: animation.dfy ===
/** A frame-list animation: a timer that steps a frame index through a
    list of frames while playing. */
module Animations {
  import opened Config
  import opened Basics

  /** The update divides by the frame count; with no frames that division
      fails, leaving the object as the update had changed it so far. */
  datatype Outcome<T> = Ok(value: T) | DivisionByZero(partial: T)

  datatype Animation = Animation(
    frames: seq<string>,
    speed: real,       // seconds per frame
    current: nat,      // index of the frame on show
    timer: real,
    playing: bool,
    looping: bool)     // kept by the game but never consulted
  {
    /** The frame index points into the frame list (or is 0 when there are
        no frames). */
    predicate Valid()
    {
      current < |frames| || (frames == [] && current == 0)
    }
  }

  /** A stopped animation on its first frame. */
  function New(frames: seq<string>, speed: real): (a: Animation)
    ensures a.frames == frames && a.speed == speed
    ensures a.Valid() && !a.playing && a.current == 0 && a.timer == 0.0
  {
    Animation(frames, speed, 0, 0.0, false, true)
  }

  /** A new animation at the default speed. */
  function NewDefault(frames: seq<string>): (a: Animation)
    ensures a.frames == frames && a.speed == AnimationSpeed
    ensures a.Valid() && !a.playing && a.current == 0 && a.timer == 0.0
  {
    New(frames, AnimationSpeed)
  }

  /** Advances the timer by `dt`; once it reaches `speed` it restarts at 0
      and the frame index steps forward, wrapping at the end of the list.
      With no frames the step fails after the timer has restarted. */
  function Update(a: Animation, dt: real): (r: Outcome<Animation>)
    ensures !a.playing ==> r == Ok(a)
    ensures r.DivisionByZero? <==> a.playing && a.timer + dt >= a.speed && a.frames == []
    ensures r.DivisionByZero? ==> r.partial == a.(timer := 0.0)
    ensures r.Ok? && a.playing && a.timer + dt < a.speed ==>
      r.value == a.(timer := a.timer + dt)
    ensures r.Ok? && a.playing && a.timer + dt >= a.speed ==>
      && r.value.timer == 0.0
      && (a.current + 1 < |a.frames| ==> r.value.current == a.current + 1)
      && (a.current + 1 == |a.frames| ==> r.value.current == 0)
    ensures r.Ok? ==> r.value.frames == a.frames && r.value.playing == a.playing && r.value.speed == a.speed
    ensures r.Ok? && a.Valid() ==> r.value.Valid()
  {
    if !a.playing then Ok(a)
    else
      var t := a.timer + dt;
      if t >= a.speed then
        if |a.frames| == 0 then DivisionByZero(a.(timer := 0.0))
        else Ok(a.(timer := 0.0, current := (a.current + 1) % |a.frames|))
      else Ok(a.(timer := t))
  }

  /** Starts playing from the first frame. */
  function Play(a: Animation): (r: Animation)
    ensures r.playing && r.current == 0 && r.timer == 0.0
    ensures r.frames == a.frames && r.speed == a.speed && r.Valid()
  {
    a.(playing := true, current := 0, timer := 0.0)
  }

  /** Stops and rewinds to the first frame. */
  function Stop(a: Animation): (r: Animation)
    ensures !r.playing && r.current == 0 && r.timer == 0.0
    ensures r.frames == a.frames && r.speed == a.speed && r.Valid()
  {
    a.(playing := false, current := 0, timer := 0.0)
  }

  /** The frame on show; indexing fails when the index is past the list. */
  function CurrentFrame(a: Animation): (r: Option<string>)
    ensures r.Some? <==> a.current < |a.frames|
    ensures r.Some? ==> r.value == a.frames[a.current]
    ensures a.Valid() ==> (r.Some? <==> a.frames != [])
  {
    if a.current < |a.frames| then Some(a.frames[a.current]) else None
  }

  /** `n` updates of `dt` each, stopping at the first that fails. */
  function UpdateN(a: Animation, dt: real, n: nat): Outcome<Animation>
    decreases n
  {
    if n == 0 then Ok(a)
    else match Update(a, dt)
      case Ok(b) => UpdateN(b, dt, n - 1)
      case DivisionByZero(b) => DivisionByZero(b)
  }

  /** Played with one update per `speed` seconds, an animation with `k`
      frames shows frame `n` after `n < k` updates and is back on frame 0
      after exactly `k`: it cycles through the whole list without failing. */
  lemma PlayCycles(a: Animation, n: nat)
    requires a.frames != [] && a.playing && a.current == 0 && a.timer == 0.0
    requires a.speed > 0.0 && n <= |a.frames|
    ensures n < |a.frames| ==> UpdateN(a, a.speed, n) == Ok(a.(current := n))
    ensures n == |a.frames| ==> UpdateN(a, a.speed, n) == Ok(a)
  {
    PlayCyclesFrom(a, a.speed, n);
  }

  lemma {:induction false} PlayCyclesFrom(a: Animation, dt: real, n: nat)
    requires a.playing && a.timer == 0.0 && a.current < |a.frames|
    requires a.speed > 0.0 && dt == a.speed && a.current + n <= |a.frames|
    ensures a.current + n < |a.frames| ==> UpdateN(a, dt, n) == Ok(a.(current := a.current + n))
    ensures a.current + n == |a.frames| ==> UpdateN(a, dt, n) == Ok(a.(current := 0))
    decreases n
  {
    if n > 0 {
      var b := a.(current := a.current + 1);
      if a.current + 1 < |a.frames| {
        assert Update(a, dt) == Ok(b);
        PlayCyclesFrom(b, dt, n - 1);
        assert b.(current := 0) == a.(current := 0);
        assert b.(current := b.current + (n - 1)) == a.(current := a.current + n);
        assert UpdateN(a, dt, n) == UpdateN(b, dt, n - 1);
      } else {
        assert n == 1 && Update(a, dt) == Ok(a.(current := 0));
        assert UpdateN(a, dt, n) == UpdateN(a.(current := 0), dt, 0);
      }
    }
  }
}

=== FILE: background.dfy ===
/** The scrolling, score-tinted background. */
module Backgrounds {
  import opened Config
  import opened Basics

  /** One scrolling layer: its horizontal offset and its speed in pixels
      per frame. */
  datatype Layer = Layer(x: real, speed: real)

  datatype Background = Background(layers: seq<Layer>, theme: int)

  /** The tint palette, one entry per 1000-point band: normal, night,
      sunset, morning. */
  const Themes: seq<Color> := [Color(255, 255, 255), Color(100, 100, 150), Color(255, 200, 100), Color(200, 255, 255)]

  /** The speeds of the main layer and the two optional overlay layers. */
  const LayerSpeeds: seq<real> := [0.5, 1.0, 2.0]

  /** The speed of the placeholder layer used when the main image is missing. */
  const PlaceholderSpeed: real := 1.0

  /** A layer whose offset lies in (-Width, 0] and which scrolls left. */
  predicate LayerValid(l: Layer)
  {
    l.speed >= 0.0 && -(Width as real) < l.x <= 0.0
  }

  predicate Valid(bg: Background)
  {
    && 0 <= bg.theme < |Themes|
    && forall i :: 0 <= i < |bg.layers| ==> LayerValid(bg.layers[i])
  }

  /** The band table the palette is documented with: scores 0-999 select
      theme 0, 1000-1999 theme 1, 2000-2999 theme 2, and 3000 or more
      theme 3. */
  predicate InBand(score: int, t: int)
  {
    if t < |Themes| - 1 then ThemeBand * t <= score < ThemeBand * (t + 1)
    else score >= ThemeBand * t
  }

  /** The theme for a score: the score's 1000-point band, capped at the
      last palette entry (for a non-negative score the division rounds
      down). */
  function ThemeIndex(score: int): (t: int)
    ensures score >= 0 ==> 0 <= t < |Themes|
    ensures score >= 0 ==> InBand(score, t)
    ensures t <= |Themes| - 1
  {
    Min(score / ThemeBand, |Themes| - 1)
  }

  /** Every non-negative score falls in exactly one band, and the theme
      picks that band. */
  lemma ThemeBandUnique(score: int, t: int)
    requires score >= 0 && 0 <= t < |Themes|
    ensures InBand(score, t) <==> t == ThemeIndex(score)
  {
  }

  /** A higher score never selects an earlier theme. */
  lemma ThemeMonotone(s1: int, s2: int)
    requires s1 <= s2
    ensures ThemeIndex(s1) <= ThemeIndex(s2)
  {
  }

  /** One frame of scrolling: the offset drops by the speed and jumps
      back to 0 once a whole screen width has gone by. */
  function Scroll(l: Layer): (r: Layer)
    ensures r.speed == l.speed
    ensures r.x == 0.0 || r.x == l.x - l.speed
    ensures r.x == 0.0 <==> l.x - l.speed <= -(Width as real) || l.x == l.speed
    ensures LayerValid(l) ==> LayerValid(r)
  {
    var x := l.x - l.speed;
    if x <= -(Width as real) then l.(x := 0.0) else l.(x := x)
  }

  /** The background after one frame at `score`: the theme follows the
      score and every layer scrolls. */
  function Update(bg: Background, score: int): (r: Background)
    ensures r.theme == ThemeIndex(score)
    ensures |r.layers| == |bg.layers|
    ensures forall i :: 0 <= i < |bg.layers| ==> r.layers[i] == Scroll(bg.layers[i])
    ensures score >= 0 && Valid(bg) ==> Valid(r)
  {
    Background(seq(|bg.layers|, i requires 0 <= i < |bg.layers| => Scroll(bg.layers[i])), ThemeIndex(score))
  }

  /** The layers the background starts with, given which images could be
      loaded: without the main image a single placeholder layer; with it,
      the main layer followed by whichever overlay layers exist. */
  function InitialLayers(mainLoaded: bool, overlay0Loaded: bool, overlay1Loaded: bool): (r: seq<Layer>)
    ensures 1 <= |r| <= 3
    ensures forall i :: 0 <= i < |r| ==> r[i].x == 0.0
    ensures !mainLoaded ==> r == [Layer(0.0, PlaceholderSpeed)]
    ensures mainLoaded ==> r[0] == Layer(0.0, LayerSpeeds[0])
    ensures mainLoaded ==> |r| == 1 + (if overlay0Loaded then 1 else 0) + (if overlay1Loaded then 1 else 0)
    ensures mainLoaded && overlay0Loaded ==> r[1] == Layer(0.0, LayerSpeeds[1])
    ensures mainLoaded && overlay1Loaded ==> r[|r| - 1] == Layer(0.0, LayerSpeeds[2])
    ensures forall i :: 0 <= i < |r| ==> r[i].speed in LayerSpeeds
  {
    if !mainLoaded then [Layer(0.0, PlaceholderSpeed)]
    else
      [Layer(0.0, LayerSpeeds[0])]
      + (if overlay0Loaded then [Layer(0.0, LayerSpeeds[1])] else [])
      + (if overlay1Loaded then [Layer(0.0, LayerSpeeds[2])] else [])
  }

  /** A new background: theme 0 and the layers that loaded. */
  function New(mainLoaded: bool, overlay0Loaded: bool, overlay1Loaded: bool): (r: Background)
    ensures Valid(r) && r.theme == 0
    ensures r.layers == InitialLayers(mainLoaded, overlay0Loaded, overlay1Loaded)
  {
    Background(InitialLayers(mainLoaded, overlay0Loaded, overlay1Loaded), 0)
  }

  /** `n` frames of scrolling. */
  function ScrollN(l: Layer, n: nat): Layer
    decreases n
  {
    if n == 0 then l else Scroll(ScrollN(l, n - 1))
  }

  /** A layer whose speed divides the screen width `n` times scrolls
      steadily left for `n - 1` frames and is back at offset 0 on the
      `n`-th: the parallax loop has period `n` frames. */
  lemma ScrollPeriod(speed: real, n: nat)
    requires n >= 1 && speed > 0.0 && (n as real) * speed == Width as real
    ensures forall k: nat :: k < n ==> ScrollN(Layer(0.0, speed), k) == Layer(-(k as real) * speed, speed)
    ensures ScrollN(Layer(0.0, speed), n) == Layer(0.0, speed)
  {
    forall k: nat | k < n
      ensures ScrollN(Layer(0.0, speed), k) == Layer(-(k as real) * speed, speed)
    {
      ScrollSteady(speed, n, k);
    }
    ScrollSteady(speed, n, n - 1);
    var m := (n - 1) as real;
    assert m * speed + speed == (n as real) * speed;
  }

  lemma {:induction false} ScrollSteady(speed: real, n: nat, k: nat)
    requires n >= 1 && speed > 0.0 && (n as real) * speed == Width as real && k < n
    ensures ScrollN(Layer(0.0, speed), k) == Layer(-(k as real) * speed, speed)
    decreases k
  {
    if k > 0 {
      ScrollSteady(speed, n, k - 1);
      var prev := ScrollN(Layer(0.0, speed), k - 1);
      StepArithmetic(speed, n, k);
      ScrollWithin(prev, -(k as real) * speed);
    }
  }

  /** The arithmetic of one steady step: k frames of `speed` are one frame
      more than k - 1 of them, and fall short of the width `n` frames cover. */
  lemma StepArithmetic(speed: real, n: nat, k: nat)
    requires speed > 0.0 && (n as real) * speed == Width as real && 0 < k < n
    ensures -((k - 1) as real) * speed - speed == -(k as real) * speed
    ensures -(k as real) * speed > -(Width as real)
  {
    var m := (k - 1) as real;
    assert m * speed + speed == (k as real) * speed;
    MulStrict(k as real, n as real, speed);
  }

  lemma ScrollWithin(l: Layer, x: real)
    requires l.x - l.speed == x && x > -(Width as real)
    ensures Scroll(l) == Layer(x, l.speed)
  {
  }

  lemma MulStrict(a: real, b: real, c: real)
    requires a < b && c > 0.0
    ensures a * c < b * c
  {
  }
}

=== FILE: basics.dfy ===
/** Small shared vocabulary: an optional value, an RGB colour, and the
    minimum and maximum the game takes of numbers. */
module Basics {

  datatype Option<T> = None | Some(value: T)

  /** An RGB colour. */
  datatype Color = Color(r: int, g: int, b: int)

  function Min(a: int, b: int): int { if a <= b then a else b }

  function Max(a: int, b: int): int { if a >= b then a else b }

  function RealMin(a: real, b: real): real { if a <= b then a else b }
}

=== FILE: config.dfy ===
/** Tuning constants of the game, gathered in one place. Each one carries
    the value the game's module-level constants give it. */
module Config {

  /** Screen size in pixels. */
  const Width: int := 800
  const Height: int := 600

  /** The game runs at a fixed 60 frames per second; every per-frame timer
      advances by one `Tick` of 1/60 s. */
  const Fps: int := 60
  const Tick: real := 1.0 / 60.0

  const PlayerMaxHealth: real := 200.0
  const PlayerHealthRegen: real := 0.5
  const PlayerHealthRegenDelay: real := 3.0

  /** The y coordinate of the ground plane; feet rest at `GroundLevel`. */
  const GroundLevel: int := 500
  const PlayerStartX: int := 100
  const PlayerWidth: int := 50
  const PlayerHeight: int := 80

  /** Milliseconds of spawn-timer accumulation between spawns. */
  const EnemySpawnRate: real := 2000.0
  const MaxEnemies: int := 5
  const ParticleLimit: int := 50

  const Gravity: real := 0.8
  const JumpStrength: real := -15.0
  const PlayerSpeed: int := 5

  const HitFlashDuration: real := 0.1
  const AttackDuration: real := 0.3
  const InvisibilityDuration: real := 5.0
  const InvisibilityCooldownDuration: real := 10.0
  /** Seconds per frame of an animation built without an explicit speed. */
  const AnimationSpeed: real := 0.1
  const PlayerAnimationSpeed: real := 0.1
  const EnemyAnimationSpeed: real := 0.2

  const EnemyWidth: int := 50
  const EnemyHeight: int := 60
  const EnemyDamage: int := 10
  const KillBonus: int := 100
  const ThemeBand: int := 1000
}

=== FILE: enemy.dfy ===
/** Enemies: they walk left at a fixed speed and take fixed-size hits. */
module Enemies {
  import opened Config
  import opened Geometry
  import opened Particles

  /** The two enemy types the game spawns. */
  datatype Kind = Basic | Strong

  /** Starting health by type: 30 for a basic enemy, 50 for a strong one. */
  function MaxHealth(k: Kind): int
  {
    match k
    case Basic => 30
    case Strong => 50
  }

  datatype Enemy = Enemy(
    kind: Kind,
    health: int,
    maxHealth: int,
    rect: Rect,
    speed: int,           // pixels per frame, drawn once at spawn
    wasHit: bool,         // already damaged by the current swing
    offScreen: bool,
    animTimer: real,
    animFrame: nat,
    mirrored: bool,
    hitFlashTimer: real,
    particles: seq<Particle>)

  /** A new enemy of kind `k` standing on the ground just beyond the right
      edge, at full health, walking at `speed`. */
  function Spawn(k: Kind, speed: int): (e: Enemy)
    ensures e.health == e.maxHealth == MaxHealth(k) && e.health > 0
    ensures e.rect.w == EnemyWidth && e.rect.h == EnemyHeight
    ensures e.rect.Left() == Width && e.rect.Bottom() == GroundLevel
    ensures !e.wasHit && !e.offScreen && e.speed == speed && e.kind == k
  {
    Enemy(k, MaxHealth(k), MaxHealth(k), Rect(Width, GroundLevel - EnemyHeight, EnemyWidth, EnemyHeight),
          speed, false, false, 0.0, 0, false, 0.0, [])
  }

  /** One frame: step left by the speed, and raise the off-screen flag
      once the right edge has passed the left side of the screen (the flag
      never falls again); the walk animation flips the sprite every
      `EnemyAnimationSpeed` seconds; the hit flash runs down; particles age. */
  function Update(e: Enemy): (r: Enemy)
    ensures r.rect == e.rect.(x := e.rect.x - e.speed)
    ensures r.offScreen <==> e.offScreen || r.rect.Right() < 0
    ensures r.health == e.health && r.wasHit == e.wasHit && r.speed == e.speed && r.kind == e.kind
    ensures r.maxHealth == e.maxHealth
    ensures e.animFrame < 2 ==> r.animFrame < 2
    ensures forall q :: q in r.particles ==> q.life > 0.0
  {
    var rect := e.rect.(x := e.rect.x - e.speed);
    var off := e.offScreen || rect.Right() < 0;
    var t := e.animTimer + Tick;
    var e1 := if t >= EnemyAnimationSpeed
      then e.(animTimer := 0.0, animFrame := (e.animFrame + 1) % 2, mirrored := !e.mirrored)
      else e.(animTimer := t);
    var e2 := if e1.hitFlashTimer > 0.0 then e1.(hitFlashTimer := e1.hitFlashTimer - Tick) else e1;
    e2.(rect := rect, offScreen := off, particles := Survivors(e2.particles, Tick))
  }

  /** A hit: health drops by the fixed damage, the flash starts and five
      sparks are added (this list has no cap). The flag reports death. */
  function TakeDamage(e: Enemy, rng: Rng): (r: (Enemy, bool))
    ensures r.0.health == e.health - EnemyDamage
    ensures r.1 <==> r.0.health <= 0
    ensures r.0.hitFlashTimer == HitFlashDuration
    ensures |r.0.particles| == |e.particles| + 5 && e.particles <= r.0.particles
    ensures r.0 == e.(health := r.0.health, hitFlashTimer := HitFlashDuration, particles := r.0.particles)
  {
    var sparks := seq(5, i requires 0 <= i < 5 =>
      NewParticle(e.rect.CenterX() as real, e.rect.CenterY() as real, rng(i).color, rng(i)));
    var h := e.health - EnemyDamage;
    (e.(health := h, hitFlashTimer := HitFlashDuration, particles := e.particles + sparks), h <= 0)
  }

  /** `n` hits in a row. */
  function HitN(e: Enemy, rng: Rng, n: nat): Enemy
    decreases n
  {
    if n == 0 then e else HitN(TakeDamage(e, rng).0, rng, n - 1)
  }

  lemma {:induction false} HitNHealth(e: Enemy, rng: Rng, n: nat)
    ensures HitN(e, rng, n).health == e.health - EnemyDamage * n
    decreases n
  {
    if n > 0 {
      HitNHealth(TakeDamage(e, rng).0, rng, n - 1);
    }
  }

  /** A fresh enemy survives its first `MaxHealth / 10 - 1` hits and dies
      on the next: it takes three hits to kill a basic enemy and five to
      kill a strong one. */
  lemma HitsToKill(k: Kind, speed: int, rng: Rng)
    ensures var n := MaxHealth(k) / EnemyDamage;
      && (forall m: nat :: m < n - 1 ==> !TakeDamage(HitN(Spawn(k, speed), rng, m), rng).1)
      && TakeDamage(HitN(Spawn(k, speed), rng, n - 1), rng).1
  {
    var n := MaxHealth(k) / EnemyDamage;
    forall m: nat | m < n - 1
      ensures !TakeDamage(HitN(Spawn(k, speed), rng, m), rng).1
    {
      HitNHealth(Spawn(k, speed), rng, m);
    }
    HitNHealth(Spawn(k, speed), rng, n - 1);
  }

  /** `n` frames of walking. */
  function UpdateN(e: Enemy, n: nat): Enemy
    decreases n
  {
    if n == 0 then e else Update(UpdateN(e, n - 1))
  }

  /** The distance walked in `n` frames at `speed` pixels per frame, one
      step at a time. */
  function Travel(speed: int, n: nat): int
    decreases n
  {
    if n == 0 then 0 else Travel(speed, n - 1) + speed
  }

  lemma {:induction false} TravelIsProduct(speed: int, n: nat)
    ensures Travel(speed, n) == speed * n
    decreases n
  {
    if n > 0 {
      TravelIsProduct(speed, n - 1);
      MulStep(speed, n);
    }
  }

  lemma {:induction false} UpdateNSpeed(e: Enemy, n: nat)
    ensures UpdateN(e, n).speed == e.speed
    decreases n
  {
    if n > 0 {
      var prev := UpdateN(e, n - 1);
      UpdateNSpeed(e, n - 1);
      assert UpdateN(e, n) == Update(prev);
      WalkStep(prev);
    }
  }

  lemma {:induction false} UpdateNTravel(e: Enemy, n: nat)
    ensures UpdateN(e, n).rect == e.rect.(x := e.rect.x - Travel(e.speed, n))
    decreases n
  {
    if n > 0 {
      var prev := UpdateN(e, n - 1);
      UpdateNTravel(e, n - 1);
      UpdateNSpeed(e, n - 1);
      assert UpdateN(e, n) == Update(prev);
      assert Travel(e.speed, n) == Travel(e.speed, n - 1) + e.speed;
    }
  }

  lemma WalkStep(e: Enemy)
    ensures Update(e).rect == e.rect.(x := e.rect.x - e.speed)
    ensures Update(e).speed == e.speed
  {
  }

  /** After `n` frames an enemy has walked `speed * n` pixels left and its
      size and height are untouched. */
  lemma {:induction false} UpdateNPosition(e: Enemy, n: nat)
    ensures UpdateN(e, n).rect == e.rect.(x := e.rect.x - e.speed * n)
    ensures UpdateN(e, n).speed == e.speed
  {
    UpdateNTravel(e, n);
    UpdateNSpeed(e, n);
    TravelIsProduct(e.speed, n);
  }

  /** An enemy with positive speed leaves the screen: after enough frames
      for its right edge to pass 0 its off-screen flag is raised. */
  lemma {:induction false} EventuallyOffScreen(e: Enemy)
    requires e.speed > 0 && e.rect.Right() >= 0
    ensures UpdateN(e, e.rect.Right() / e.speed + 1).offScreen
  {
    var n := e.rect.Right() / e.speed + 1;
    UpdateNPosition(e, n);
    DivBound(e.rect.Right(), e.speed);
    assert UpdateN(e, n) == Update(UpdateN(e, n - 1));
  }

  lemma MulStep(s: int, n: nat)
    requires n > 0
    ensures s * (n - 1) + s == s * n
  {
  }

  lemma DivBound(a: nat, b: int)
    requires b > 0
    ensures b * (a / b + 1) > a
  {
    assert a == b * (a / b) + a % b;
    assert b * (a / b + 1) == b * (a / b) + b;
  }
}

=== FILE: game.dfy ===
/** One frame of a run: key events, spawning, entity updates, the combat
    pass, the contact check that ends a run, and the high-score decision. */
module Game {
  import opened Config
  import opened Basics
  import opened Geometry
  import opened Particles
  import Players
  import Enemies
  import Backgrounds

  /** The keys the game reacts to on a key press. */
  datatype Key = Space | KeyF | KeyE | KeyQ | Down | Return | KeyR | OtherKey

  /** A key press, with the random draws an action it triggers may use. */
  datatype Event = Event(key: Key, sparks: Rng)

  datatype State = State(
    bg: Backgrounds.Background,
    player: Players.Player,
    enemies: seq<Enemies.Enemy>,
    spawnTimer: real,          // milliseconds since the last spawn
    score: int,
    highscore: int,
    active: bool)              // a run is in progress

  /** Everything a frame takes from outside: the elapsed time, the key
      presses and held keys, the game clock, the framework's coordinate
      conversion, the random draws (the kind and speed of a spawned
      enemy, the player's sparkles, and the sparks of the i-th enemy hit),
      and which of the main, first and second overlay background images
      load should the frame build a new background. */
  datatype FrameInput = FrameInput(
    dt: real,
    events: seq<Event>,
    keys: Players.Keys,
    now: real,
    toCoord: real -> int,
    spawnKind: Enemies.Kind,
    spawnSpeed: int,
    regenSparks: Rng,
    hitSparks: nat -> Rng,
    bgImages: (bool, bool, bool))

  /** The state after a frame, the number of enemies killed in it, and the
      high score to write to disk, if any. */
  datatype FrameResult = FrameResult(state: State, kills: nat, save: Option<int>)

  /** A state as a run begins: the loaded background, a new player at the
      start position, no enemies, score 0, the stored high score, and the
      start menu showing. */
  function Initial(storedHighscore: int, bg: Backgrounds.Background): (g: State)
    requires Backgrounds.Valid(bg)
    ensures Inv(g) && !g.active && g.score == 0 && g.enemies == [] && g.spawnTimer == 0.0
    ensures g.highscore == storedHighscore && g.bg == bg
    ensures g.player == Players.New(PlayerStartX, GroundLevel)
  {
    State(bg, NewPlayer(), [], 0.0, 0, storedHighscore, false)
  }

  function NewPlayer(): Players.Player
  {
    Players.New(PlayerStartX, GroundLevel)
  }

  /** What holds between frames: at most `MaxEnemies` enemies, all alive
      and on screen; a valid player and background; a non-negative score. */
  predicate Inv(g: State)
  {
    && |g.enemies| <= MaxEnemies
    && Healthy(g.enemies) && Visible(g.enemies)
    && Players.Valid(g.player)
    && Backgrounds.Valid(g.bg)
    && g.score >= 0
  }

  /** Every enemy in the list is alive. */
  predicate Healthy(es: seq<Enemies.Enemy>)
  {
    forall i :: 0 <= i < |es| ==> es[i].health > 0
  }

  /** No enemy in the list has walked off screen. */
  predicate Visible(es: seq<Enemies.Enemy>)
  {
    forall i :: 0 <= i < |es| ==> !es[i].offScreen
  }

  // ---------------------------------------------------------------- events

  /** A key press during a run: jump, attack, special attack, block (which
      changes nothing) or hide; other keys are ignored. */
  function PlayerKey(p: Players.Player, key: Key, rng: Rng): (r: Players.Player)
    ensures key == Space ==> r == Players.Jump(p, rng).0
    ensures key == KeyF ==> r == Players.Attack(p).0
    ensures key == KeyE ==> r == Players.SpecialAttack(p).0
    ensures key == Down ==> r == Players.ToggleHide(p).0
    ensures key !in {Space, KeyF, KeyE, Down} ==> r == p
    ensures Players.Valid(p) ==> Players.Valid(r)
  {
    match key
    case Space => Players.Jump(p, rng).0
    case KeyF => Players.Attack(p).0
    case KeyE => Players.SpecialAttack(p).0
    case KeyQ => p
    case Down => Players.ToggleHide(p).0
    case _ => p
  }

  /** A key press outside a run: Return starts the first run (score still
      0); R after a finished run (score above 0) starts a new one with a
      new player, no enemies and score 0. Background, spawn timer and high
      score carry over. */
  function MenuKey(g: State, key: Key): (r: State)
    requires !g.active
    ensures r.active <==> (key == Return && g.score == 0) || (key == KeyR && g.score > 0)
    ensures !r.active ==> r == g
    ensures key == Return && g.score == 0 ==> r == g.(active := true)
    ensures key == KeyR && g.score > 0 ==>
      r == g.(active := true, player := NewPlayer(), enemies := [], score := 0)
  {
    if key == Return && g.score == 0 then g.(active := true)
    else if key == KeyR && g.score > 0 then
      g.(active := true, player := NewPlayer(), enemies := [], score := 0)
    else g
  }

  function HandleEvent(g: State, ev: Event): State
  {
    if g.active then g.(player := PlayerKey(g.player, ev.key, ev.sparks))
    else MenuKey(g, ev.key)
  }

  /** The frame's key presses in order; a press that starts a run makes
      the later presses of the same frame act on the player. */
  function HandleEvents(g: State, evs: seq<Event>): (r: State)
    ensures Inv(g) ==> Inv(r)
    ensures r.highscore == g.highscore
    ensures g.active ==> r.active && r.enemies == g.enemies && r.score == g.score
    decreases |evs|
  {
    if evs == [] then g
    else HandleEvents(HandleEvent(g, evs[0]), evs[1..])
  }

  // -------------------------------------------------------------- spawning

  /** The spawn decision, on the already advanced timer: one enemy appears
      only when the timer has reached the spawn rate and fewer than
      `MaxEnemies` are alive, and only then does the timer restart. */
  function SpawnStep(es: seq<Enemies.Enemy>, timer: real, kind: Enemies.Kind, speed: int)
    : (r: (seq<Enemies.Enemy>, real))
    ensures (|r.0| == |es| + 1) <==> timer >= EnemySpawnRate && |es| < MaxEnemies
    ensures |r.0| == |es| + 1 ==> r == (es + [Enemies.Spawn(kind, speed)], 0.0)
    ensures |r.0| != |es| + 1 ==> r == (es, timer)
    ensures |es| <= MaxEnemies ==> |r.0| <= MaxEnemies
    ensures Healthy(es) ==> Healthy(r.0)
  {
    if timer >= EnemySpawnRate && |es| < MaxEnemies then
      (es + [Enemies.Spawn(kind, speed)], 0.0)
    else (es, timer)
  }

  // ---------------------------------------------------------------- combat

  /** The attack area against one enemy: an enemy it overlaps that has
      not been hit in this swing is marked hit and takes the fixed damage;
      the flag reports a kill. Any other enemy is left as it is. */
  function Strike(e: Enemies.Enemy, area: Rect, rng: Rng): (r: (Enemies.Enemy, bool))
    ensures e.wasHit || !Overlaps(area, e.rect) ==> r == (e, false)
    ensures !e.wasHit && Overlaps(area, e.rect) ==>
      && r.0.wasHit && r.0.health == e.health - EnemyDamage
      && (r.1 <==> r.0.health <= 0)
    ensures r.0.rect == e.rect && r.0.offScreen == e.offScreen && r.0.speed == e.speed
    ensures !r.1 && e.health > 0 ==> r.0.health > 0
    ensures Overlaps(area, e.rect) ==> r.0.wasHit
  {
    if Overlaps(area, e.rect) && !e.wasHit then
      Enemies.TakeDamage(e.(wasHit := true), rng)
    else (e, false)
  }

  /** The number of enemies of `es` whose strike kills them, the i-th
      struck with `sparks(base + i)`. */
  function KillCount(es: seq<Enemies.Enemy>, area: Rect, sparks: nat -> Rng, base: nat): nat
    decreases |es|
  {
    if es == [] then 0
    else (if Strike(es[0], area, sparks(base)).1 then 1 else 0) + KillCount(es[1..], area, sparks, base + 1)
  }

  /** The combat pass of one frame over the enemies in order: each is
      struck, the killed are removed, and the kill count is returned (each
      kill is worth `KillBonus` points). The i-th enemy's sparks come from
      `sparks(base + i)`. */
  function Swing(es: seq<Enemies.Enemy>, area: Rect, sparks: nat -> Rng, base: nat)
    : (r: (seq<Enemies.Enemy>, nat))
    ensures |r.0| + r.1 == |es|
    ensures forall e :: e in r.0 && Overlaps(area, e.rect) ==> e.wasHit
    ensures Healthy(es) ==> Healthy(r.0)
    ensures Visible(es) ==> Visible(r.0)
    decreases |es|
  {
    if es == [] then ([], 0)
    else
      var (e, killed) := Strike(es[0], area, sparks(base));
      var (rest, k) := Swing(es[1..], area, sparks, base + 1);
      assert Healthy(es) ==> Healthy(es[1..]);
      assert Visible(es) ==> Visible(es[1..]);
      if killed then (rest, k + 1) else ([e] + rest, k)
  }

  /** Every enemy left after the pass is the outcome of a strike that did
      not kill. */
  lemma {:induction false} SwingKeepsOnlySurvivors(es: seq<Enemies.Enemy>, area: Rect, sparks: nat -> Rng, base: nat)
    ensures forall e :: e in Swing(es, area, sparks, base).0 ==> StruckAlive(es, area, sparks, base, e)
    decreases |es|
  {
    if es != [] {
      SwingKeepsOnlySurvivors(es[1..], area, sparks, base + 1);
      var rest := Swing(es[1..], area, sparks, base + 1).0;
      forall e | e in Swing(es, area, sparks, base).0
        ensures StruckAlive(es, area, sparks, base, e)
      {
        if e in rest {
          assert StruckAlive(es[1..], area, sparks, base + 1, e);
          var i :| 0 <= i < |es| - 1 && Strike(es[1..][i], area, sparks(base + 1 + i)) == (e, false);
          assert es[1..][i] == es[i + 1];
          assert base + 1 + i == base + (i + 1);
        } else {
          assert Strike(es[0], area, sparks(base + 0)) == (e, false);
        }
      }
    }
  }

  /** `e` is what striking some enemy of `es` left, and that strike did not
      kill. */
  ghost predicate StruckAlive(es: seq<Enemies.Enemy>, area: Rect, sparks: nat -> Rng, base: nat, e: Enemies.Enemy)
  {
    exists i :: 0 <= i < |es| && Strike(es[i], area, sparks(base + i)) == (e, false)
  }

  /** The pass reports exactly the enemies whose strike kills them. */
  lemma {:induction false} SwingCountsKills(es: seq<Enemies.Enemy>, area: Rect, sparks: nat -> Rng, base: nat)
    ensures Swing(es, area, sparks, base).1 == KillCount(es, area, sparks, base)
    decreases |es|
  {
    if es != [] {
      SwingCountsKills(es[1..], area, sparks, base + 1);
      SwingUnfold(es, area, sparks, base);
    }
  }

  /** The pass keeps every enemy whose strike did not kill it. */
  lemma SwingKeepsAllSurvivors(es: seq<Enemies.Enemy>, area: Rect, sparks: nat -> Rng, base: nat)
    ensures forall i :: 0 <= i < |es| && !Strike(es[i], area, sparks(base + i)).1 ==>
      Strike(es[i], area, sparks(base + i)).0 in Swing(es, area, sparks, base).0
  {
    forall i | 0 <= i < |es| && !Strike(es[i], area, sparks(base + i)).1
      ensures Strike(es[i], area, sparks(base + i)).0 in Swing(es, area, sparks, base).0
    {
      SwingKeepsSurvivor(es, area, sparks, base, i);
    }
  }

  /** Every enemy whose strike did not kill it is still there after the
      pass. */
  lemma {:induction false} SwingKeepsSurvivor(es: seq<Enemies.Enemy>, area: Rect, sparks: nat -> Rng, base: nat, i: nat)
    requires i < |es| && !Strike(es[i], area, sparks(base + i)).1
    ensures Strike(es[i], area, sparks(base + i)).0 in Swing(es, area, sparks, base).0
    decreases i
  {
    if i == 0 {
      SwingKeepsHead(es, area, sparks, base);
    } else {
      StrikeInTail(es, area, sparks, base, i);
      SwingKeepsSurvivor(es[1..], area, sparks, base + 1, i - 1);
      SwingKeepsTailAt(es, area, sparks, base, i);
    }
  }

  /** The i-th strike of the list is the (i - 1)-th strike of its tail. */
  lemma StrikeInTail(es: seq<Enemies.Enemy>, area: Rect, sparks: nat -> Rng, base: nat, i: nat)
    requires 0 < i < |es|
    ensures Strike(es[1..][i - 1], area, sparks(base + 1 + (i - 1))) == Strike(es[i], area, sparks(base + i))
  {
    assert es[1..][i - 1] == es[i] && base + 1 + (i - 1) == base + i;
  }

  /** What the pass keeps of the i-th enemy as part of the tail it keeps
      as part of the whole list. */
  lemma SwingKeepsTailAt(es: seq<Enemies.Enemy>, area: Rect, sparks: nat -> Rng, base: nat, i: nat)
    requires 0 < i < |es|
    requires Strike(es[1..][i - 1], area, sparks(base + 1 + (i - 1))).0 in Swing(es[1..], area, sparks, base + 1).0
    ensures Strike(es[i], area, sparks(base + i)).0 in Swing(es, area, sparks, base).0
  {
    StrikeInTail(es, area, sparks, base, i);
    SwingKeepsTail(es, area, sparks, base, Strike(es[i], area, sparks(base + i)).0);
  }

  /** The head of the list survives the pass when its strike does not kill. */
  lemma SwingKeepsHead(es: seq<Enemies.Enemy>, area: Rect, sparks: nat -> Rng, base: nat)
    requires es != [] && !Strike(es[0], area, sparks(base)).1
    ensures Strike(es[0], area, sparks(base + 0)).0 in Swing(es, area, sparks, base).0
  {
    SwingUnfold(es, area, sparks, base);
  }

  /** Whatever the pass keeps of the tail it keeps of the whole list. */
  lemma SwingKeepsTail(es: seq<Enemies.Enemy>, area: Rect, sparks: nat -> Rng, base: nat, x: Enemies.Enemy)
    requires es != [] && x in Swing(es[1..], area, sparks, base + 1).0
    ensures x in Swing(es, area, sparks, base).0
  {
    SwingUnfold(es, area, sparks, base);
  }

  /** One step of the pass: the head is struck and kept unless killed. */
  lemma SwingUnfold(es: seq<Enemies.Enemy>, area: Rect, sparks: nat -> Rng, base: nat)
    requires es != []
    ensures var st := Strike(es[0], area, sparks(base));
      var rest := Swing(es[1..], area, sparks, base + 1);
      Swing(es, area, sparks, base) == if st.1 then (rest.0, rest.1 + 1) else ([st.0] + rest.0, rest.1)
  {
  }

  /** A second pass of the same swing over the survivors of the first
      hits nobody: within one swing each enemy is damaged at most once. */
  lemma {:induction false} SwingHitsOnce(es: seq<Enemies.Enemy>, area: Rect, sparks: nat -> Rng, base: nat,
                                         sparks': nat -> Rng, base': nat)
    ensures var first := Swing(es, area, sparks, base).0;
      Swing(first, area, sparks', base') == (first, 0)
    decreases |es|
  {
    if es != [] {
      var (e, killed) := Strike(es[0], area, sparks(base));
      var rest := Swing(es[1..], area, sparks, base + 1).0;
      if killed {
        SwingHitsOnce(es[1..], area, sparks, base + 1, sparks', base');
      } else {
        SwingHitsOnce(es[1..], area, sparks, base + 1, sparks', base' + 1);
        var first := [e] + rest;
        assert first[0] == e && first[1..] == rest;
        assert Strike(e, area, sparks'(base')) == (e, false);
      }
    }
  }

  /** Out of a swing every enemy's hit mark is cleared, ready for the next. */
  function ClearHits(es: seq<Enemies.Enemy>): (r: seq<Enemies.Enemy>)
    ensures |r| == |es|
    ensures forall i :: 0 <= i < |es| ==> r[i] == es[i].(wasHit := false)
  {
    seq(|es|, i requires 0 <= i < |es| => es[i].(wasHit := false))
  }

  /** Frames spent within one swing, seen from one enemy that is never
      removed: it walks, then the frame's attack area strikes it. */
  function SwingFrames(e: Enemies.Enemy, areas: seq<Rect>, rng: Rng): Enemies.Enemy
    decreases |areas|
  {
    if areas == [] then e
    else SwingFrames(Strike(Enemies.Update(e), areas[0], rng).0, areas[1..], rng)
  }

  /** However long the swing and wherever its area lies, one enemy loses
      at most one hit's worth of health, and none at all if it was already
      hit in this swing. */
  lemma {:induction false} SwingFramesOneHit(e: Enemies.Enemy, areas: seq<Rect>, rng: Rng)
    ensures var r := SwingFrames(e, areas, rng);
      && (e.wasHit ==> r.health == e.health && r.wasHit)
      && (r.health == e.health || r.health == e.health - EnemyDamage)
    decreases |areas|
  {
    if areas != [] {
      var u := Enemies.Update(e);
      var s := Strike(u, areas[0], rng).0;
      SwingFramesOneHit(s, areas[1..], rng);
      if s.health != e.health {
        assert s.wasHit;
      }
    }
  }

  // ------------------------------------------------------------- game over

  /** The player touches an enemy while visible. */
  predicate Caught(p: Players.Player, es: seq<Enemies.Enemy>)
  {
    !p.hidden && Touches(p.rect, es)
  }

  /** Some enemy of the list overlaps `r` (checked in list order, as the
      framework's group collision does). */
  predicate Touches(r: Rect, es: seq<Enemies.Enemy>)
    decreases |es|
  {
    es != [] && (Overlaps(r, es[0].rect) || Touches(r, es[1..]))
  }

  /** The scan finds a touching enemy exactly when one exists. */
  lemma {:induction false} TouchesIffSomeOverlap(r: Rect, es: seq<Enemies.Enemy>)
    ensures Touches(r, es) <==> exists i :: 0 <= i < |es| && Overlaps(r, es[i].rect)
    decreases |es|
  {
    if es != [] {
      TouchesIffSomeOverlap(r, es[1..]);
      if Touches(r, es[1..]) {
        var i :| 0 <= i < |es| - 1 && Overlaps(r, es[1..][i].rect);
        assert Overlaps(r, es[i + 1].rect);
      }
      if exists i :: 0 <= i < |es| && Overlaps(r, es[i].rect) {
        var i :| 0 <= i < |es| && Overlaps(r, es[i].rect);
        if i > 0 {
          assert Overlaps(r, es[1..][i - 1].rect);
        }
      }
    }
  }

  /** The end of a run: the high score becomes the run's score only when
      that is strictly greater, and only then is it written to disk. */
  function EndRun(score: int, highscore: int): (r: (int, Option<int>))
    ensures r.0 >= highscore && r.0 >= score
    ensures r.0 == highscore || r.0 == score
    ensures r.1.Some? <==> score > highscore
    ensures r.1.Some? ==> r.1.value == r.0
  {
    if score > highscore then (score, Some(score)) else (highscore, None)
  }

  // ------------------------------------------------------------------ frame

  /** The enemies' part of a frame before combat: the spawn decision on
      the advanced timer, every enemy walking, and the removal of those
      that left the screen. */
  function EnemyPhase(es: seq<Enemies.Enemy>, timer: real, kind: Enemies.Kind, speed: int)
    : (r: (seq<Enemies.Enemy>, real))
    ensures forall e :: e in r.0 <==> !e.offScreen && Walked(SpawnStep(es, timer, kind, speed).0, e)
    ensures |r.0| <= |es| + 1
    ensures |es| <= MaxEnemies ==> |r.0| <= MaxEnemies
    ensures Visible(r.0)
    ensures Healthy(es) ==> Healthy(r.0)
    ensures r.1 == SpawnStep(es, timer, kind, speed).1
  {
    var (spawned, timer') := SpawnStep(es, timer, kind, speed);
    (OnScreen(UpdateEnemies(spawned)), timer')
  }

  /** `e` is one frame's walk of some enemy of `es`. */
  ghost predicate Walked(es: seq<Enemies.Enemy>, e: Enemies.Enemy)
  {
    exists i :: 0 <= i < |es| && e == Enemies.Update(es[i])
  }

  /** The combat pass as the frame runs it: while the player attacks,
      the swing strikes the enemies, and exactly those whose strike did
      not kill remain; otherwise every hit mark is cleared and nobody is
      hurt. */
  function Combat(p: Players.Player, es: seq<Enemies.Enemy>, sparks: nat -> Rng): (r: (seq<Enemies.Enemy>, nat))
    ensures |r.0| + r.1 == |es|
    ensures !p.attacking ==> r.1 == 0 && |r.0| == |es| && forall i :: 0 <= i < |es| ==> r.0[i] == es[i].(wasHit := false)
    ensures p.attacking ==> r.1 == KillCount(es, p.attackRect, sparks, 0)
    ensures p.attacking ==> forall e :: e in r.0 ==> StruckAlive(es, p.attackRect, sparks, 0, e)
    ensures p.attacking ==> forall i :: 0 <= i < |es| && !Strike(es[i], p.attackRect, sparks(i)).1 ==>
      Strike(es[i], p.attackRect, sparks(i)).0 in r.0
    ensures p.attacking ==> forall e :: e in r.0 && Overlaps(p.attackRect, e.rect) ==> e.wasHit
    ensures Healthy(es) ==> Healthy(r.0)
    ensures Visible(es) ==> Visible(r.0)
  {
    if p.attacking then
      SwingKeepsOnlySurvivors(es, p.attackRect, sparks, 0);
      SwingKeepsAllSurvivors(es, p.attackRect, sparks, 0);
      SwingCountsKills(es, p.attackRect, sparks, 0);
      Swing(es, p.attackRect, sparks, 0)
    else (ClearHits(es), 0)
  }

  /** The end of a frame: the contact check, the high-score decision and
      the per-frame point. */
  function Finish(g: State, bg: Backgrounds.Background, p: Players.Player, es: seq<Enemies.Enemy>,
                  timer: real, kills: nat): (r: FrameResult)
    ensures r.state.bg == bg && r.state.player == p && r.state.enemies == es && r.state.spawnTimer == timer
    ensures r.state.score == g.score + KillBonus * kills + 1
    ensures r.kills == kills
    ensures r.state.active <==> !Caught(p, es)
    ensures r.state.active ==> r.state.highscore == g.highscore && r.save == None
    ensures !r.state.active ==> (r.state.highscore, r.save) == EndRun(g.score + KillBonus * kills, g.highscore)
  {
    var score := g.score + KillBonus * kills;
    if Caught(p, es) then
      var (hs, save) := EndRun(score, g.highscore);
      FrameResult(State(bg, p, es, timer, score + 1, hs, false), kills, save)
    else
      FrameResult(State(bg, p, es, timer, score + 1, g.highscore, true), kills, None)
  }

  /** One frame of a run in progress: spawn, background, player, enemies
      walk and the off-screen ones go, combat, contact, and one point. */
  function ActiveFrame(g: State, inp: FrameInput): (r: FrameResult)
    requires g.active
    ensures r.state.player == Players.Update(g.player, inp.keys, inp.now, inp.toCoord, inp.regenSparks)
    ensures r.state.score == g.score + 1 + KillBonus * r.kills
    ensures |g.enemies| <= MaxEnemies ==> |r.state.enemies| <= MaxEnemies
    ensures Visible(r.state.enemies)
    ensures var moved := EnemyPhase(g.enemies, g.spawnTimer + inp.dt * 1000.0, inp.spawnKind, inp.spawnSpeed);
      var p := r.state.player;
      && r.state.spawnTimer == moved.1
      && r.kills == (if p.attacking then KillCount(moved.0, p.attackRect, inp.hitSparks, 0) else 0)
    ensures r == Finish(g, r.state.bg, r.state.player, r.state.enemies, r.state.spawnTimer, r.kills)
    ensures r.state.bg == Backgrounds.Update(g.bg, g.score)
  {
    var p := Players.Update(g.player, inp.keys, inp.now, inp.toCoord, inp.regenSparks);
    var r := Resolve(g, p, inp);
    assert r.state.player == p;
    r
  }

  /** The rest of a running frame once the player `p` has been updated:
      spawn, background, enemies walk and the off-screen ones go, combat,
      contact, and one point. */
  function Resolve(g: State, p: Players.Player, inp: FrameInput): (r: FrameResult)
    ensures r.state.player == p
    ensures |g.enemies| <= MaxEnemies ==> |r.state.enemies| <= MaxEnemies
    ensures |r.state.enemies| + r.kills <= |g.enemies| + 1
    ensures r.state.score == g.score + 1 + KillBonus * r.kills
    ensures !p.attacking ==> r.kills == 0 && forall i :: 0 <= i < |r.state.enemies| ==> !r.state.enemies[i].wasHit
    ensures p.attacking ==> forall e :: e in r.state.enemies && Overlaps(p.attackRect, e.rect) ==> e.wasHit
    ensures Visible(r.state.enemies)
    ensures Healthy(g.enemies) ==> Healthy(r.state.enemies)
    ensures r == Finish(g, r.state.bg, p, r.state.enemies, r.state.spawnTimer, r.kills)
    ensures r.state.bg == Backgrounds.Update(g.bg, g.score)
    ensures var moved := EnemyPhase(g.enemies, g.spawnTimer + inp.dt * 1000.0, inp.spawnKind, inp.spawnSpeed);
      && r.state.spawnTimer == moved.1
      && r.kills == (if p.attacking then KillCount(moved.0, p.attackRect, inp.hitSparks, 0) else 0)
    ensures var moved := EnemyPhase(g.enemies, g.spawnTimer + inp.dt * 1000.0, inp.spawnKind, inp.spawnSpeed);
      !p.attacking ==>
        && |r.state.enemies| == |moved.0|
        && forall i :: 0 <= i < |moved.0| ==> r.state.enemies[i] == moved.0[i].(wasHit := false)
    ensures var moved := EnemyPhase(g.enemies, g.spawnTimer + inp.dt * 1000.0, inp.spawnKind, inp.spawnSpeed);
      p.attacking ==> forall e :: e in r.state.enemies ==> StruckAlive(moved.0, p.attackRect, inp.hitSparks, 0, e)
    ensures var moved := EnemyPhase(g.enemies, g.spawnTimer + inp.dt * 1000.0, inp.spawnKind, inp.spawnSpeed);
      p.attacking ==> forall i :: 0 <= i < |moved.0| && !Strike(moved.0[i], p.attackRect, inp.hitSparks(i)).1 ==>
        Strike(moved.0[i], p.attackRect, inp.hitSparks(i)).0 in r.state.enemies
  {
    var moved := EnemyPhase(g.enemies, g.spawnTimer + inp.dt * 1000.0, inp.spawnKind, inp.spawnSpeed);
    var fought := Combat(p, moved.0, inp.hitSparks);
    Finish(g, Backgrounds.Update(g.bg, g.score), p, fought.0, moved.1, fought.1)
  }

  /** The enemies a running frame leaves: without an attack, the walked
      enemies with their hit marks cleared; with one, exactly the walked
      enemies whose strike did not kill, as the strike left them. */
  lemma ActiveFrameEnemies(g: State, inp: FrameInput)
    requires g.active
    ensures var moved := EnemyPhase(g.enemies, g.spawnTimer + inp.dt * 1000.0, inp.spawnKind, inp.spawnSpeed);
      var p := ActiveFrame(g, inp).state.player;
      !p.attacking ==>
        && |ActiveFrame(g, inp).state.enemies| == |moved.0|
        && forall i :: 0 <= i < |moved.0| ==> ActiveFrame(g, inp).state.enemies[i] == moved.0[i].(wasHit := false)
    ensures var moved := EnemyPhase(g.enemies, g.spawnTimer + inp.dt * 1000.0, inp.spawnKind, inp.spawnSpeed);
      var p := ActiveFrame(g, inp).state.player;
      p.attacking ==> forall e :: e in ActiveFrame(g, inp).state.enemies ==> StruckAlive(moved.0, p.attackRect, inp.hitSparks, 0, e)
    ensures var moved := EnemyPhase(g.enemies, g.spawnTimer + inp.dt * 1000.0, inp.spawnKind, inp.spawnSpeed);
      var p := ActiveFrame(g, inp).state.player;
      p.attacking ==> forall i :: 0 <= i < |moved.0| && !Strike(moved.0[i], p.attackRect, inp.hitSparks(i)).1 ==>
        Strike(moved.0[i], p.attackRect, inp.hitSparks(i)).0 in ActiveFrame(g, inp).state.enemies
  {
    var p := Players.Update(g.player, inp.keys, inp.now, inp.toCoord, inp.regenSparks);
    assert ActiveFrame(g, inp) == Resolve(g, p, inp);
  }

  /** When no enemy left standing after combat overlaps the player, or the
      player is hidden, the run goes on: the high score is kept and
      nothing is saved. */
  lemma {:induction false} NoContactContinues(g: State, inp: FrameInput)
    requires g.active
    ensures var r := ActiveFrame(g, inp);
      (r.state.player.hidden || forall i :: 0 <= i < |r.state.enemies| ==> !Overlaps(r.state.player.rect, r.state.enemies[i].rect)) ==>
      && r.state.active && r.save == None
      && r.state.highscore == g.highscore
  {
    var r := ActiveFrame(g, inp);
    TouchesIffSomeOverlap(r.state.player.rect, r.state.enemies);
  }

  /** A player who is hidden after the frame's update cannot be caught:
      the run goes on and nothing is saved, whatever the enemies do. */
  lemma HiddenPlayerIsSafe(g: State, inp: FrameInput)
    requires g.active
    requires Players.Update(g.player, inp.keys, inp.now, inp.toCoord, inp.regenSparks).hidden
    ensures ActiveFrame(g, inp).state.active && ActiveFrame(g, inp).save == None
    ensures ActiveFrame(g, inp).state.highscore == g.highscore
  {
    var r := ActiveFrame(g, inp);
    assert r == Finish(g, r.state.bg, r.state.player, r.state.enemies, r.state.spawnTimer, r.kills);
  }

  /** A visible player that overlaps an enemy left standing after combat
      ends the run; the high score becomes the larger of itself and the
      score before the frame's point, and is saved exactly when the score
      beats it. */
  lemma ContactEndsRun(g: State, inp: FrameInput, i: nat)
    requires g.active
    ensures var r := ActiveFrame(g, inp);
      !r.state.player.hidden && i < |r.state.enemies| && Overlaps(r.state.player.rect, r.state.enemies[i].rect) ==>
      && !r.state.active
      && r.state.highscore == (if r.state.score - 1 > g.highscore then r.state.score - 1 else g.highscore)
      && (r.save.Some? <==> r.state.score - 1 > g.highscore)
  {
    var r := ActiveFrame(g, inp);
    TouchesIffSomeOverlap(r.state.player.rect, r.state.enemies);
    assert r == Finish(g, r.state.bg, r.state.player, r.state.enemies, r.state.spawnTimer, r.kills);
  }

  /** Every enemy walks one frame. */
  function UpdateEnemies(es: seq<Enemies.Enemy>): (r: seq<Enemies.Enemy>)
    ensures |r| == |es|
    ensures forall i :: 0 <= i < |es| ==> r[i] == Enemies.Update(es[i])
    ensures forall e :: e in r <==> Walked(es, e)
    ensures Healthy(es) ==> Healthy(r)
  {
    seq(|es|, i requires 0 <= i < |es| => Enemies.Update(es[i]))
  }

  /** The enemies still on screen, in order; those that walked off are
      removed. */
  function OnScreen(es: seq<Enemies.Enemy>): (r: seq<Enemies.Enemy>)
    ensures |r| <= |es|
    ensures forall e :: e in r <==> e in es && !e.offScreen
    ensures Visible(r)
    ensures Healthy(es) ==> Healthy(r)
    decreases |es|
  {
    if es == [] then []
    else
      var rest := OnScreen(es[1..]);
      assert forall e :: e in es <==> e == es[0] || e in es[1..];
      assert Healthy(es) ==> Healthy(es[1..]);
      if es[0].offScreen then rest else [es[0]] + rest
  }

  /** One frame: the key presses, then, during a run, the frame's update.
      On the start menu (score 0) nothing but the key presses changes.
      After a finished run, unless this frame's presses restarted it, the
      game-over screen waits for R and everything is then rebuilt: a new
      background, the high score read back (it is the one last saved),
      and the start menu. */
  function Frame(g: State, inp: FrameInput): (r: FrameResult)
    ensures var g1 := HandleEvents(g, inp.events); !g1.active && g1.score == 0 ==> r == FrameResult(g1, 0, None)
    ensures var g1 := HandleEvents(g, inp.events); !g1.active && g1.score != 0 ==>
      && r.kills == 0 && r.save == None
      && r.state == Initial(g.highscore, Backgrounds.New(inp.bgImages.0, inp.bgImages.1, inp.bgImages.2))
    ensures var g1 := HandleEvents(g, inp.events); g1.active ==> r == ActiveFrame(g1, inp)
    ensures var g1 := HandleEvents(g, inp.events); g1.active ==> r.state.score == g1.score + 1 + KillBonus * r.kills
    ensures Inv(g) ==> Inv(r.state)
    ensures r.state.highscore >= g.highscore
    ensures r.save.Some? ==> r.save.value == r.state.highscore > g.highscore
  {
    var g1 := HandleEvents(g, inp.events);
    if !g1.active && g1.score == 0 then FrameResult(g1, 0, None)
    else if !g1.active then
      FrameResult(Initial(g1.highscore, Backgrounds.New(inp.bgImages.0, inp.bgImages.1, inp.bgImages.2)), 0, None)
    else
      var r := ActiveFrame(g1, inp);
      assert Inv(g) ==> Backgrounds.Valid(r.state.bg);
      r
  }

  /** Outside a run, key presses other than R leave the state as it is
      when the score is above 0 (Return only starts a run from score 0). */
  lemma {:induction false} IdleKeys(g: State, evs: seq<Event>)
    requires !g.active && g.score > 0
    requires forall i :: 0 <= i < |evs| ==> evs[i].key != KeyR
    ensures HandleEvents(g, evs) == g
    decreases |evs|
  {
    if evs != [] {
      assert HandleEvent(g, evs[0]) == g;
      IdleKeys(g, evs[1..]);
    }
  }

  /** The frame after a run ended without an R press goes back to the
      start menu: no run, score 0, no enemies, a new player, the spawn
      timer at 0, the high score kept. */
  lemma GameOverLeadsToMenu(g: State, inp: FrameInput)
    requires !g.active && g.score > 0
    ensures (forall i :: 0 <= i < |inp.events| ==> inp.events[i].key != KeyR) ==>
      var r := Frame(g, inp).state;
      && !r.active && r.score == 0 && r.enemies == [] && r.spawnTimer == 0.0
      && r.player == Players.New(PlayerStartX, GroundLevel) && r.highscore == g.highscore
  {
    if forall i :: 0 <= i < |inp.events| ==> inp.events[i].key != KeyR {
      IdleKeys(g, inp.events);
    }
  }

  /** An R press as the first key after a run ended starts the next run
      in that same frame. */
  lemma GameOverRestart(g: State, inp: FrameInput)
    requires !g.active && g.score > 0
    ensures inp.events != [] && inp.events[0].key == KeyR ==> HandleEvents(g, inp.events).active
  {
    if inp.events != [] && inp.events[0].key == KeyR {
      assert HandleEvents(g, inp.events) == HandleEvents(MenuKey(g, KeyR), inp.events[1..]);
    }
  }

  /** A sequence of frames. */
  function Run(g: State, inputs: seq<FrameInput>): State
    decreases |inputs|
  {
    if inputs == [] then g else Run(Frame(g, inputs[0]).state, inputs[1..])
  }

  /** However many frames are played, the state invariant holds: never
      more than `MaxEnemies` enemies, health and particles within their
      caps, the hidden window and the cooldown never overlapping. The high
      score never drops. */
  lemma {:induction false} RunKeepsInv(g: State, inputs: seq<FrameInput>)
    requires Inv(g)
    ensures Inv(Run(g, inputs))
    ensures Run(g, inputs).highscore >= g.highscore
    decreases |inputs|
  {
    if inputs != [] {
      RunKeepsInv(Frame(g, inputs[0]).state, inputs[1..]);
    }
  }
}

=== FILE: geometry.dfy ===
/** Integer axis-aligned rectangles, as the game's sprites use them. */
module Geometry {

  /** A rectangle with its top-left corner at (x, y); it covers the
      half-open ranges [x, x + w) and [y, y + h). */
  datatype Rect = Rect(x: int, y: int, w: int, h: int) {
    function Left(): int { x }
    function Right(): int { x + w }
    function Top(): int { y }
    function Bottom(): int { y + h }
    /** The framework's centre uses integer halving of the size. */
    function CenterX(): int { x + w / 2 }
    function CenterY(): int { y + h / 2 }
  }

  /** Rectangle collision: two rectangles of positive area overlap when
      their half-open ranges intersect on both axes. A rectangle with no
      area collides with nothing. */
  predicate Overlaps(a: Rect, b: Rect)
  {
    && a.w > 0 && a.h > 0 && b.w > 0 && b.h > 0
    && a.Left() < b.Right() && b.Left() < a.Right()
    && a.Top() < b.Bottom() && b.Top() < a.Bottom()
  }

  /** The integer point (px, py) lies inside `r`. */
  predicate Contains(r: Rect, px: int, py: int)
  {
    r.Left() <= px < r.Right() && r.Top() <= py < r.Bottom()
  }

  /** Overlap is a point-set intersection: two rectangles overlap exactly
      when some integer point lies inside both. */
  lemma OverlapsIffCommonPoint(a: Rect, b: Rect)
    ensures Overlaps(a, b) <==> exists px, py :: Contains(a, px, py) && Contains(b, px, py)
  {
    if Overlaps(a, b) {
      var px := if a.x < b.x then b.x else a.x;
      var py := if a.y < b.y then b.y else a.y;
      assert Contains(a, px, py) && Contains(b, px, py);
    }
  }
}

=== FILE: particles.dfy ===
/** Short-lived visual particles and the capped lists that own them. */
module Particles {
  import opened Config
  import opened Basics

  const Grey := Color(200, 200, 200)
  const Green := Color(0, 255, 0)

  /** The random draws one new particle consumes: a position jitter, a
      size, a velocity and (for hit sparks) a colour. The game draws these
      from its random generator; here they are unconstrained inputs, and
      `GameDraw` says which of them the generator can produce. */
  datatype Spark = Spark(dx: int, dy: int, size: int, vx: real, vy: real, color: Color)

  /** The hit-spark palette: red, orange, yellow. */
  const SparkPalette: seq<Color> := [Color(255, 0, 0), Color(255, 165, 0), Color(255, 255, 0)]

  /** A draw the game's generator can produce for a particle: a size from 2
      to 4 and each velocity component in [-2, 2]; for a hit spark the colour
      is also one of the palette. */
  predicate GameDraw(s: Spark, hit: bool)
  {
    && 2 <= s.size <= 4
    && -2.0 <= s.vx <= 2.0 && -2.0 <= s.vy <= 2.0
    && (hit ==> s.color in SparkPalette)
  }

  /** A stream of random draws: the i-th particle of an emission uses the
      i-th spark. */
  type Rng = nat -> Spark

  /** A particle moving at a fixed velocity; it lives while `life` (in
      seconds) is positive. */
  datatype Particle = Particle(x: real, y: real, color: Color, size: int, vx: real, vy: real, life: real)

  /** A new particle at (x, y): one second of life, with its size and
      velocity taken from the draw. */
  function NewParticle(x: real, y: real, color: Color, s: Spark): (r: Particle)
    ensures r.x == x && r.y == y && r.color == color
    ensures r.size == s.size && r.vx == s.vx && r.vy == s.vy
    ensures r.life == 1.0
    ensures GameDraw(s, false) ==> 2 <= r.size <= 4 && -2.0 <= r.vx <= 2.0 && -2.0 <= r.vy <= 2.0
  {
    Particle(x, y, color, s.size, s.vx, s.vy, 1.0)
  }

  /** One update of a particle over `dt` seconds; the flag says whether it
      is still alive. */
  function Advance(p: Particle, dt: real): (r: (Particle, bool))
    ensures r.1 <==> r.0.life > 0.0
    ensures r.0.life == p.life - dt
    ensures r.0.x - p.x == p.vx && r.0.y - p.y == p.vy
    ensures r.0.color == p.color && r.0.size == p.size && r.0.vx == p.vx && r.0.vy == p.vy
  {
    var q := p.(x := p.x + p.vx, y := p.y + p.vy, life := p.life - dt);
    (q, q.life > 0.0)
  }

  /** The particle list after one update: every particle is advanced and
      those whose life ran out are dropped, keeping the rest in order. */
  function Survivors(ps: seq<Particle>, dt: real): (r: seq<Particle>)
    ensures |r| <= |ps|
    ensures forall q :: q in r ==> q.life > 0.0
    ensures forall q :: q in r <==> exists p :: p in ps && Advance(p, dt) == (q, true)
    decreases |ps|
  {
    if ps == [] then []
    else
      var rest := Survivors(ps[1..], dt);
      assert forall p :: p in ps[1..] ==> p in ps;
      assert forall p :: p in ps ==> p == ps[0] || p in ps[1..];
      var (q, alive) := Advance(ps[0], dt);
      if alive then [q] + rest else rest
  }

  /** How many particles of `ps` are still alive after advancing by `dt`. */
  function CountAlive(ps: seq<Particle>, dt: real): nat
  {
    if ps == [] then 0
    else (if ps[0].life - dt > 0.0 then 1 else 0) + CountAlive(ps[1..], dt)
  }

  /** The update keeps exactly the particles whose life outlasts `dt`. */
  lemma {:induction false} SurvivorsCount(ps: seq<Particle>, dt: real)
    ensures |Survivors(ps, dt)| == CountAlive(ps, dt)
    decreases |ps|
  {
    if ps != [] {
      SurvivorsCount(ps[1..], dt);
    }
  }

  /** Appends one particle unless the list already holds `ParticleLimit`. */
  function AddParticle(ps: seq<Particle>, p: Particle): (r: seq<Particle>)
    ensures |ps| < ParticleLimit ==> r == ps + [p]
    ensures |ps| >= ParticleLimit ==> r == ps
  {
    if |ps| < ParticleLimit then ps + [p] else ps
  }

  /** Adds the particles of `news` one by one through `AddParticle`: a
      prefix of them is appended, as many as fit under the cap. */
  function Emit(ps: seq<Particle>, news: seq<Particle>): (r: seq<Particle>)
    ensures |r| == if |ps| >= ParticleLimit then |ps| else Min(ParticleLimit, |ps| + |news|)
    ensures r == ps + news[..|r| - |ps|]
    decreases |news|
  {
    if news == [] then ps
    else
      var r := Emit(AddParticle(ps, news[0]), news[1..]);
      assert |ps| < ParticleLimit ==> news[..|r| - |ps|] == [news[0]] + news[1..][..|r| - |ps| - 1];
      r
  }

  /** `n` successive updates of one particle. */
  function AdvanceN(p: Particle, dt: real, n: nat): Particle
    decreases n
  {
    if n == 0 then p else AdvanceN(Advance(p, dt).0, dt, n - 1)
  }

  lemma {:induction false} AdvanceNLife(p: Particle, dt: real, n: nat)
    ensures AdvanceN(p, dt, n).life == p.life - (n as real) * dt
    decreases n
  {
    if n > 0 {
      AdvanceNLife(Advance(p, dt).0, dt, n - 1);
    }
  }

  /** A new particle (one second of life) updated once per frame is alive
      after each of its first 59 updates and expired after the 60th. */
  lemma FreshParticleLivesOneSecond(p: Particle)
    requires p.life == 1.0
    ensures forall n: nat :: n < Fps ==> AdvanceN(p, Tick, n).life > 0.0
    ensures AdvanceN(p, Tick, Fps).life <= 0.0
  {
    forall n: nat | n < Fps
      ensures AdvanceN(p, Tick, n).life > 0.0
    {
      AdvanceNLife(p, Tick, n);
    }
    AdvanceNLife(p, Tick, Fps);
  }

  /** Every particle the game creates survives its first 59 frame updates
      and expires on the 60th. */
  lemma NewParticleLivesOneSecond(x: real, y: real, color: Color, s: Spark)
    ensures forall n: nat :: n < Fps ==> AdvanceN(NewParticle(x, y, color, s), Tick, n).life > 0.0
    ensures AdvanceN(NewParticle(x, y, color, s), Tick, Fps).life <= 0.0
  {
    FreshParticleLivesOneSecond(NewParticle(x, y, color, s));
  }
}

=== FILE: player.dfy ===
/** The player: guarded actions (jump, attack, hide, take damage) and the
    per-frame update that advances its timers, movement and particles. */
module Players {
  import opened Config
  import opened Basics
  import opened Geometry
  import opened Particles

  /** The held direction keys, sampled once per frame. */
  datatype Keys = Keys(left: bool, right: bool)

  /** Which sprite the player shows; chosen on each animation step. */
  datatype Pose = IdlePose | RunPose | JumpPose | AttackPose

  datatype Player = Player(
    rect: Rect,
    health: real,
    attacking: bool,
    attackRect: Rect,
    attackTimer: real,
    hidden: bool,
    facingRight: bool,
    lastDamageTime: real,   // seconds on the game clock
    regenTimer: real,
    animTimer: real,
    animFrame: nat,
    pose: Pose,
    mirrored: bool,         // the sprite is flipped to face left
    hitFlashTimer: real,
    particles: seq<Particle>,
    invisTimer: real,
    invisCooldown: real,
    vx: int,
    vy: real,
    jumping: bool,
    onGround: bool)

  /** The invariant every reachable player keeps: health within the cap,
      particles within the cap, an attack window shorter than its duration,
      and the hidden window and its cooldown never running together. */
  predicate Valid(p: Player)
  {
    && p.health <= PlayerMaxHealth
    && |p.particles| <= ParticleLimit
    && (p.attacking ==> 0.0 <= p.attackTimer < AttackDuration)
    && (!p.attacking ==> p.attackTimer == 0.0)
    && (p.hidden ==> p.invisTimer > 0.0 && p.invisCooldown <= 0.0)
    && p.animFrame < 2
  }

  /** A new player of the game's size at (x, y), full health, standing,
      facing right. */
  function New(x: int, y: int): (p: Player)
    ensures p.rect == Rect(x, y, PlayerWidth, PlayerHeight) && p.facingRight
    ensures p.vx == 0 && p.vy == 0.0
    ensures Valid(p) && p.health == PlayerMaxHealth && p.onGround && !p.jumping
    ensures !p.attacking && !p.hidden && p.invisCooldown == 0.0 && p.particles == []
  {
    Player(Rect(x, y, PlayerWidth, PlayerHeight), PlayerMaxHealth, false, Rect(0, 0, 0, 0), 0.0,
           false, true, 0.0, 0.0, 0.0, 0, IdlePose, false, 0.0, [], 0.0, 0.0, 0, 0.0, false, true)
  }

  // ---------------------------------------------------------------- timers

  /** The attack clock for one frame: while attacking, the timer grows by
      a tick; when it reaches the attack duration the attack ends and the
      timer is reset. */
  function AttackClock(attacking: bool, t: real): (r: (bool, real))
    ensures !attacking ==> r == (attacking, t)
    ensures attacking ==> (r.0 <==> t + Tick < AttackDuration)
    ensures attacking && r.0 ==> r.1 == t + Tick
    ensures !r.0 && attacking ==> r.1 == 0.0
  {
    if attacking then
      var t' := t + Tick;
      if t' >= AttackDuration then (false, 0.0) else (true, t')
    else (attacking, t)
  }

  /** The invisibility clock for one frame, over (hidden, timer, cooldown):
      while hidden the timer runs down and, on reaching 0, the player
      reappears with a full cooldown; otherwise a running cooldown runs down. */
  function HideClock(hidden: bool, timer: real, cooldown: real): (r: (bool, real, real))
    ensures hidden && timer - Tick > 0.0 ==> r == (true, timer - Tick, cooldown)
    ensures hidden && timer - Tick <= 0.0 ==> r == (false, timer - Tick, InvisibilityCooldownDuration)
    ensures !hidden && cooldown > 0.0 ==> r == (false, timer, cooldown - Tick)
    ensures !hidden && cooldown <= 0.0 ==> r == (hidden, timer, cooldown)
  {
    if hidden then
      var t := timer - Tick;
      if t <= 0.0 then (false, t, InvisibilityCooldownDuration) else (true, t, cooldown)
    else if cooldown > 0.0 then (hidden, timer, cooldown - Tick)
    else (hidden, timer, cooldown)
  }

  /** The regeneration clock for one frame, once the delay after damage
      has passed: the timer grows by a tick, and when it reaches a second
      it restarts at 0 and one regeneration step is due. */
  function RegenClock(t: real): (r: (real, bool))
    ensures r.1 <==> t + Tick >= 1.0
    ensures r.1 ==> r.0 == 0.0
    ensures !r.1 ==> r.0 == t + Tick
  {
    var t' := t + Tick;
    if t' >= 1.0 then (0.0, true) else (t', false)
  }

  /** `n` frames of the regeneration clock: the timer after them and the
      number of regeneration steps they made. */
  function RegenClockN(t: real, n: nat): (real, nat)
    decreases n
  {
    if n == 0 then (t, 0)
    else
      var (t', heal) := RegenClock(t);
      var (t'', steps) := RegenClockN(t', n - 1);
      (t'', steps + if heal then 1 else 0)
  }

  /** From a restarted timer, regeneration makes no step in the first 59
      frames and exactly one on the 60th, after which the timer is back
      at 0: one step per second at 60 frames per second. */
  lemma RegenEverySecond()
    ensures forall k: nat :: k < 60 ==> RegenClockN(0.0, k) == ((k as real) * Tick, 0)
    ensures RegenClockN(0.0, 60) == (0.0, 1)
  {
    forall k: nat | k < 60
      ensures RegenClockN(0.0, k) == ((k as real) * Tick, 0)
    {
      RegenRunning(k);
    }
    RegenRunning(59);
    RegenClockNSplit(0.0, 59);
  }

  lemma {:induction false} RegenRunning(k: nat)
    requires k < 60
    ensures RegenClockN(0.0, k) == ((k as real) * Tick, 0)
    decreases k
  {
    if k > 0 {
      RegenRunning(k - 1);
      RegenClockNSplit(0.0, k - 1);
    }
  }

  lemma {:induction false} RegenClockNSplit(t: real, k: nat)
    ensures RegenClockN(t, k + 1) ==
      var r := RegenClockN(t, k);
      var c := RegenClock(r.0);
      (c.0, r.1 + if c.1 then 1 else 0)
    decreases k
  {
    if k > 0 {
      RegenClockNSplit(RegenClock(t).0, k - 1);
    }
  }

  /** `n` frames of the attack clock. */
  function AttackClockN(attacking: bool, t: real, n: nat): (bool, real)
    decreases n
  {
    if n == 0 then (attacking, t)
    else var r := AttackClock(attacking, t); AttackClockN(r.0, r.1, n - 1)
  }

  /** An attack started by `Attack` lasts exactly 18 frames (0.3 s at 60
      frames per second): it is still on after each of the first 17
      updates and over after the 18th. */
  lemma AttackLastsEighteenFrames()
    ensures forall k: nat :: k < 18 ==> AttackClockN(true, 0.0, k) == (true, (k as real) * Tick)
    ensures AttackClockN(true, 0.0, 18) == (false, 0.0)
  {
    forall k: nat | k < 18
      ensures AttackClockN(true, 0.0, k) == (true, (k as real) * Tick)
    {
      AttackRunning(k);
    }
    AttackRunning(17);
    AttackClockNSplit(true, 0.0, 17);
  }

  lemma {:induction false} AttackRunning(k: nat)
    requires k < 18
    ensures AttackClockN(true, 0.0, k) == (true, (k as real) * Tick)
    decreases k
  {
    if k > 0 {
      AttackRunning(k - 1);
      AttackClockNSplit(true, 0.0, k - 1);
    }
  }

  lemma {:induction false} AttackClockNSplit(attacking: bool, t: real, k: nat)
    ensures AttackClockN(attacking, t, k + 1) ==
      var r := AttackClockN(attacking, t, k); AttackClock(r.0, r.1)
    decreases k
  {
    if k > 0 {
      var r := AttackClock(attacking, t);
      AttackClockNSplit(r.0, r.1, k - 1);
    }
  }

  /** `n` frames of the invisibility clock. */
  function HideClockN(hidden: bool, timer: real, cooldown: real, n: nat): (bool, real, real)
    decreases n
  {
    if n == 0 then (hidden, timer, cooldown)
    else var r := HideClock(hidden, timer, cooldown); HideClockN(r.0, r.1, r.2, n - 1)
  }

  /** After `ToggleHide` (timer 5 s, cooldown spent) the player stays
      hidden for 299 updates and reappears on the 300th, with the 10 s
      cooldown starting. */
  lemma HiddenLastsFiveSeconds(cooldown: real)
    requires cooldown <= 0.0
    ensures forall k: nat :: k < 300 ==> HideClockN(true, InvisibilityDuration, cooldown, k).0
    ensures HideClockN(true, InvisibilityDuration, cooldown, 300) == (false, 0.0, InvisibilityCooldownDuration)
  {
    forall k: nat | k < 300
      ensures HideClockN(true, InvisibilityDuration, cooldown, k).0
    {
      HiddenRunning(cooldown, k);
    }
    HiddenRunning(cooldown, 299);
    HideClockNSplit(true, InvisibilityDuration, cooldown, 299);
  }

  lemma {:induction false} HiddenRunning(cooldown: real, k: nat)
    requires k < 300
    ensures HideClockN(true, InvisibilityDuration, cooldown, k) ==
      (true, InvisibilityDuration - (k as real) * Tick, cooldown)
    decreases k
  {
    if k > 0 {
      HiddenRunning(cooldown, k - 1);
      HideClockNSplit(true, InvisibilityDuration, cooldown, k - 1);
    }
  }

  /** Once visible again, the 10 s cooldown keeps `ToggleHide` refused for
      599 updates; after the 600th it is spent and hiding is allowed. */
  lemma CooldownLastsTenSeconds(timer: real)
    ensures forall k: nat :: k < 600 ==> HideClockN(false, timer, InvisibilityCooldownDuration, k).2 > 0.0
    ensures HideClockN(false, timer, InvisibilityCooldownDuration, 600) == (false, timer, 0.0)
  {
    forall k: nat | k < 600
      ensures HideClockN(false, timer, InvisibilityCooldownDuration, k).2 > 0.0
    {
      CooldownRunning(timer, k);
    }
    CooldownRunning(timer, 599);
    HideClockNSplit(false, timer, InvisibilityCooldownDuration, 599);
  }

  lemma {:induction false} CooldownRunning(timer: real, k: nat)
    requires k < 600
    ensures HideClockN(false, timer, InvisibilityCooldownDuration, k) ==
      (false, timer, InvisibilityCooldownDuration - (k as real) * Tick)
    decreases k
  {
    if k > 0 {
      CooldownRunning(timer, k - 1);
      HideClockNSplit(false, timer, InvisibilityCooldownDuration, k - 1);
    }
  }

  lemma {:induction false} HideClockNSplit(hidden: bool, timer: real, cooldown: real, k: nat)
    ensures HideClockN(hidden, timer, cooldown, k + 1) ==
      var r := HideClockN(hidden, timer, cooldown, k); HideClock(r.0, r.1, r.2)
    decreases k
  {
    if k > 0 {
      var r := HideClock(hidden, timer, cooldown);
      HideClockNSplit(r.0, r.1, r.2, k - 1);
    }
  }

  // ------------------------------------------------------ particle bursts

  /** The three dust puffs of a jump, spread around the feet. */
  function JumpPuffs(r: Rect, rng: Rng): seq<Particle>
  {
    seq(3, i requires 0 <= i < 3 => NewParticle((r.CenterX() + rng(i).dx) as real, r.Bottom() as real, Grey, rng(i)))
  }

  /** The two green sparkles of a regeneration step, near the head. */
  function RegenSparkles(r: Rect, rng: Rng): seq<Particle>
  {
    seq(2, i requires 0 <= i < 2 => NewParticle((r.CenterX() + rng(i).dx) as real, (r.Top() + rng(i).dy) as real, Green, rng(i)))
  }

  /** The five sparks of a hit, at the centre, in colours from the spark
      palette. */
  function HitSparks(r: Rect, rng: Rng): seq<Particle>
  {
    seq(5, i requires 0 <= i < 5 => NewParticle(r.CenterX() as real, r.CenterY() as real, rng(i).color, rng(i)))
  }

  // ------------------------------------------------------- frame update

  /** Health regeneration for one frame at game time `now`: only once more
      than the regeneration delay has passed since the last damage, the
      regeneration timer runs; each full second it adds the regeneration
      amount, capped at the maximum, and (below the cap) emits sparkles. */
  function Regenerate(p: Player, now: real, rng: Rng): (r: Player)
    ensures now - p.lastDamageTime <= PlayerHealthRegenDelay ==> r == p
    ensures now - p.lastDamageTime > PlayerHealthRegenDelay ==> r.regenTimer == RegenClock(p.regenTimer).0
    ensures now - p.lastDamageTime > PlayerHealthRegenDelay && p.regenTimer + Tick >= 1.0 ==> r == Heal(p, rng)
    ensures now - p.lastDamageTime > PlayerHealthRegenDelay && p.regenTimer + Tick < 1.0 ==>
      r == p.(regenTimer := p.regenTimer + Tick)
    ensures r.health == p.health || r.health == RealMin(PlayerMaxHealth, p.health + PlayerHealthRegen)
    ensures r.health != p.health ==> r.health <= PlayerMaxHealth
    ensures p.health <= PlayerMaxHealth ==> p.health <= r.health <= PlayerMaxHealth
    ensures |p.particles| <= ParticleLimit ==> |r.particles| <= ParticleLimit
    ensures r == p.(health := r.health, regenTimer := r.regenTimer, particles := r.particles)
  {
    if now - p.lastDamageTime > PlayerHealthRegenDelay then
      var t := p.regenTimer + Tick;
      if t >= 1.0 then Heal(p, rng) else p.(regenTimer := t)
    else p
  }

  /** One full second of regeneration: the health rises by the
      regeneration amount up to the maximum, the timer restarts, and
      sparkles appear while the health stays below the maximum. */
  function Heal(p: Player, rng: Rng): (r: Player)
    ensures r.health == RealMin(PlayerMaxHealth, p.health + PlayerHealthRegen)
    ensures r.regenTimer == 0.0
    ensures r.health < PlayerMaxHealth ==> r.particles == Emit(p.particles, RegenSparkles(p.rect, rng))
    ensures r.health >= PlayerMaxHealth ==> r.particles == p.particles
    ensures |p.particles| <= ParticleLimit ==> |r.particles| <= ParticleLimit
    ensures r == p.(health := r.health, regenTimer := 0.0, particles := r.particles)
  {
    var h := RealMin(PlayerMaxHealth, p.health + PlayerHealthRegen);
    var ps := if h < PlayerMaxHealth then Emit(p.particles, RegenSparkles(p.rect, rng)) else p.particles;
    p.(health := h, regenTimer := 0.0, particles := ps)
  }

  /** Horizontal velocity and facing from the held keys; right wins when
      both are held, since it is read second. */
  function Steer(p: Player, keys: Keys): (r: Player)
    ensures keys.right ==> r.vx == PlayerSpeed && r.facingRight
    ensures keys.left && !keys.right ==> r.vx == -PlayerSpeed && !r.facingRight
    ensures !keys.left && !keys.right ==> r.vx == 0 && r.facingRight == p.facingRight
    ensures r == p.(vx := r.vx, facingRight := r.facingRight)
  {
    var p1 := p.(vx := 0);
    var p2 := if keys.left then p1.(vx := -PlayerSpeed, facingRight := false) else p1;
    if keys.right then p2.(vx := PlayerSpeed, facingRight := true) else p2
  }

  /** Gravity, position integration, the horizontal clamp to the screen
      and the ground snap. `toCoord` is the framework's conversion of a
      fractional coordinate to the rectangle's integer one. */
  function Move(p: Player, toCoord: real -> int): (r: Player)
    ensures r.rect.w == p.rect.w && r.rect.h == p.rect.h
    ensures 0 <= r.rect.x
    ensures p.rect.w <= Width ==> r.rect.Right() <= Width
    ensures 0 <= p.rect.x + p.vx && p.rect.x + p.vx + p.rect.w <= Width ==> r.rect.x == p.rect.x + p.vx
    ensures p.rect.x + p.vx < 0 ==> r.rect.x == 0
    ensures p.rect.w <= Width && p.rect.x + p.vx > Width - p.rect.w ==> r.rect.x == Width - p.rect.w
    ensures r.rect.Bottom() <= GroundLevel
    ensures r.onGround <==> r.rect.Bottom() == GroundLevel
    ensures r.onGround ==> !r.jumping && r.vy == 0.0
    ensures !r.onGround ==> r.vy == p.vy + Gravity && r.jumping == p.jumping
    ensures r == p.(rect := r.rect, vy := r.vy, onGround := r.onGround, jumping := r.jumping)
  {
    var vy := p.vy + Gravity;
    var x := Max(0, Min(Width - p.rect.w, p.rect.x + p.vx));
    var moved := p.rect.(x := x, y := toCoord(p.rect.y as real + vy));
    if moved.Bottom() >= GroundLevel then
      p.(rect := moved.(y := GroundLevel - moved.h), vy := 0.0, onGround := true, jumping := false)
    else
      p.(rect := moved, vy := vy, onGround := false)
  }

  /** The pose the sprite takes on an animation step. */
  function PoseFor(p: Player): Pose
  {
    if p.attacking then AttackPose
    else if !p.onGround then JumpPose
    else if p.vx != 0 then RunPose
    else IdlePose
  }

  /** The animation timer: every `PlayerAnimationSpeed` seconds the frame
      toggles and the pose and mirroring are refreshed. */
  function Animate(p: Player): (r: Player)
    ensures p.animFrame < 2 ==> r.animFrame < 2
    ensures r == p.(animTimer := r.animTimer, animFrame := r.animFrame, pose := r.pose, mirrored := r.mirrored)
  {
    var t := p.animTimer + Tick;
    if t >= PlayerAnimationSpeed then
      p.(animTimer := 0.0, animFrame := (p.animFrame + 1) % 2, pose := PoseFor(p), mirrored := !p.facingRight)
    else p.(animTimer := t)
  }

  /** The timed part of a frame: the attack and invisibility clocks, then
      health regeneration. */
  function Clocks(p: Player, now: real, rng: Rng): (r: Player)
    ensures Valid(p) ==> Valid(r)
    ensures (r.attacking, r.attackTimer) == AttackClock(p.attacking, p.attackTimer)
    ensures (r.hidden, r.invisTimer, r.invisCooldown) == HideClock(p.hidden, p.invisTimer, p.invisCooldown)
    ensures now - p.lastDamageTime <= PlayerHealthRegenDelay ==> r.health == p.health && r.regenTimer == p.regenTimer
    ensures now - p.lastDamageTime > PlayerHealthRegenDelay ==>
      && r.regenTimer == RegenClock(p.regenTimer).0
      && (RegenClock(p.regenTimer).1 ==> r.health == RealMin(PlayerMaxHealth, p.health + PlayerHealthRegen))
      && (!RegenClock(p.regenTimer).1 ==> r.health == p.health)
    ensures r.health == p.health || r.health == RealMin(PlayerMaxHealth, p.health + PlayerHealthRegen)
    ensures p.health <= PlayerMaxHealth ==> p.health <= r.health <= PlayerMaxHealth
    ensures r == p.(attacking := r.attacking, attackTimer := r.attackTimer, hidden := r.hidden,
                    invisTimer := r.invisTimer, invisCooldown := r.invisCooldown,
                    health := r.health, regenTimer := r.regenTimer, particles := r.particles)
    ensures |p.particles| <= ParticleLimit ==> |r.particles| <= ParticleLimit
  {
    var (a, at) := AttackClock(p.attacking, p.attackTimer);
    var (h, it, ic) := HideClock(p.hidden, p.invisTimer, p.invisCooldown);
    var p1 := p.(attacking := a, attackTimer := at, hidden := h, invisTimer := it, invisCooldown := ic);
    Regenerate(p1, now, rng)
  }

  /** One frame of the player: timers, regeneration, movement, animation,
      hit flash, and particle ageing. */
  function Update(p: Player, keys: Keys, now: real, toCoord: real -> int, rng: Rng): (r: Player)
    ensures Valid(p) ==> Valid(r)
    ensures (r.attacking, r.attackTimer) == AttackClock(p.attacking, p.attackTimer)
    ensures (r.hidden, r.invisTimer, r.invisCooldown) == HideClock(p.hidden, p.invisTimer, p.invisCooldown)
    ensures now - p.lastDamageTime <= PlayerHealthRegenDelay ==> r.health == p.health && r.regenTimer == p.regenTimer
    ensures now - p.lastDamageTime > PlayerHealthRegenDelay ==>
      && r.regenTimer == RegenClock(p.regenTimer).0
      && (RegenClock(p.regenTimer).1 ==> r.health == RealMin(PlayerMaxHealth, p.health + PlayerHealthRegen))
      && (!RegenClock(p.regenTimer).1 ==> r.health == p.health)
    ensures r.health == p.health || r.health == RealMin(PlayerMaxHealth, p.health + PlayerHealthRegen)
    ensures p.health <= PlayerMaxHealth ==> p.health <= r.health <= PlayerMaxHealth
    ensures keys.right ==> r.vx == PlayerSpeed && r.facingRight
    ensures keys.left && !keys.right ==> r.vx == -PlayerSpeed && !r.facingRight
    ensures !keys.left && !keys.right ==> r.vx == 0 && r.facingRight == p.facingRight
    ensures r.rect.w == p.rect.w && r.rect.h == p.rect.h && 0 <= r.rect.x
    ensures p.rect.w <= Width ==> r.rect.Right() <= Width
    ensures 0 <= p.rect.x + r.vx && p.rect.x + r.vx + p.rect.w <= Width ==> r.rect.x == p.rect.x + r.vx
    ensures p.rect.x + r.vx < 0 ==> r.rect.x == 0
    ensures p.rect.w <= Width && p.rect.x + r.vx > Width - p.rect.w ==> r.rect.x == Width - p.rect.w
    ensures r.onGround <==> r.rect.Bottom() == GroundLevel
    ensures r.rect.Bottom() <= GroundLevel
    ensures r.onGround ==> !r.jumping && r.vy == 0.0
    ensures forall q :: q in r.particles ==> q.life > 0.0
    ensures r.lastDamageTime == p.lastDamageTime && r.attackRect == p.attackRect
    ensures p.hitFlashTimer > 0.0 ==> r.hitFlashTimer == p.hitFlashTimer - Tick
    ensures p.hitFlashTimer <= 0.0 ==> r.hitFlashTimer == p.hitFlashTimer
  {
    var p2 := Clocks(p, now, rng);
    var p3 := Move(Steer(p2, keys), toCoord);
    var p4 := Animate(p3);
    var p5 := if p4.hitFlashTimer > 0.0 then p4.(hitFlashTimer := p4.hitFlashTimer - Tick) else p4;
    p5.(particles := Survivors(p5.particles, Tick))
  }

  // --------------------------------------------------------------- actions

  /** A jump: only from the ground and not mid-jump, it gives the upward
      impulse, leaves the ground and emits dust; otherwise nothing changes. */
  function Jump(p: Player, rng: Rng): (r: (Player, bool))
    ensures r.1 <==> p.onGround && !p.jumping
    ensures !r.1 ==> r.0 == p
    ensures r.1 ==> r.0.jumping && !r.0.onGround && r.0.vy == JumpStrength
    ensures r.1 ==> r.0 == p.(jumping := true, vy := JumpStrength, onGround := false, particles := r.0.particles)
    ensures p.particles <= r.0.particles
    ensures Valid(p) ==> Valid(r.0)
  {
    if p.onGround && !p.jumping then
      (p.(jumping := true, vy := JumpStrength, onGround := false,
          particles := Emit(p.particles, JumpPuffs(p.rect, rng))), true)
    else (p, false)
  }

  /** An attack: refused while one is under way; otherwise it opens the
      attack window and places a player-sized hit area against the side
      the player faces. */
  function Attack(p: Player): (r: (Player, bool))
    ensures r.1 <==> !p.attacking
    ensures !r.1 ==> r.0 == p
    ensures r.1 ==> r.0 == p.(attacking := true, attackTimer := 0.0, attackRect := r.0.attackRect)
    ensures r.1 ==> r.0.attackRect.y == p.rect.y && r.0.attackRect.w == p.rect.w && r.0.attackRect.h == p.rect.h
    ensures r.1 && p.facingRight ==> r.0.attackRect.Left() == p.rect.Right()
    ensures r.1 && !p.facingRight ==> r.0.attackRect.Right() == p.rect.Left()
    ensures r.1 ==> !Overlaps(r.0.attackRect, p.rect)
    ensures Valid(p) ==> Valid(r.0)
  {
    if !p.attacking then
      var left := if p.facingRight then p.rect.Right() else p.rect.Left() - p.rect.w;
      (p.(attacking := true, attackTimer := 0.0, attackRect := Rect(left, p.rect.y, p.rect.w, p.rect.h)), true)
    else (p, false)
  }

  /** The special attack: for now exactly the ordinary attack. */
  function SpecialAttack(p: Player): (r: (Player, bool))
    ensures r.1 <==> !p.attacking
    ensures !r.1 ==> r.0 == p
    ensures r.1 ==> r.0 == p.(attacking := true, attackTimer := 0.0, attackRect := r.0.attackRect)
    ensures r.1 && p.facingRight ==> r.0.attackRect == Rect(p.rect.Right(), p.rect.y, p.rect.w, p.rect.h)
    ensures r.1 && !p.facingRight ==> r.0.attackRect == Rect(p.rect.Left() - p.rect.w, p.rect.y, p.rect.w, p.rect.h)
  {
    Attack(p)
  }

  /** Hiding: allowed only when visible and the cooldown is spent; it
      starts the invisibility window. */
  function ToggleHide(p: Player): (r: (Player, bool))
    ensures r.1 <==> !p.hidden && p.invisCooldown <= 0.0
    ensures !r.1 ==> r.0 == p
    ensures r.1 ==> r.0 == p.(hidden := true, invisTimer := InvisibilityDuration)
    ensures Valid(p) ==> Valid(r.0)
  {
    if !p.hidden && p.invisCooldown <= 0.0 then
      (p.(hidden := true, invisTimer := InvisibilityDuration), true)
    else (p, false)
  }

  /** Damage at game time `now`: ignored while hidden; otherwise health
      drops by exactly `amount`, the regeneration delay restarts, the hit
      flash starts and sparks fly. The flag reports health at or below 0. */
  function TakeDamage(p: Player, amount: real, now: real, rng: Rng): (r: (Player, bool))
    ensures p.hidden ==> r == (p, false)
    ensures !p.hidden ==> r.0.health == p.health - amount
    ensures !p.hidden ==> (r.1 <==> r.0.health <= 0.0)
    ensures !p.hidden ==> r.0.lastDamageTime == now && r.0.hitFlashTimer == HitFlashDuration
    ensures !p.hidden ==> r.0 == p.(health := r.0.health, lastDamageTime := now,
                                    hitFlashTimer := HitFlashDuration, particles := r.0.particles)
    ensures p.particles <= r.0.particles
    ensures Valid(p) && amount >= 0.0 ==> Valid(r.0)
  {
    if !p.hidden then
      var h := p.health - amount;
      (p.(health := h, lastDamageTime := now, hitFlashTimer := HitFlashDuration,
          particles := Emit(p.particles, HitSparks(p.rect, rng))), h <= 0.0)
    else (p, false)
  }

  /** Damage taken at `now` holds health down for the whole regeneration
      delay: a frame at any time up to three seconds later leaves the
      damaged health as it is. */
  lemma DamageSuppressesRegen(p: Player, amount: real, now: real, rng: Rng,
                              later: real, keys: Keys, toCoord: real -> int, rng': Rng)
    requires !p.hidden && now <= later <= now + PlayerHealthRegenDelay
    ensures Update(TakeDamage(p, amount, now, rng).0, keys, later, toCoord, rng').health == p.health - amount
  {
  }
}
